=== FILE: README.md ===
# BME280 driver core in Dafny

A model of the core of a Linux kernel driver for the Bosch BME280
temperature / pressure / humidity sensor (`src/bme280.c` and
`include/bme280.h`). It is in four parts.

1. **Byte decoders.** These are the calibration-block parsers
   (`parse_temp_press_calib_data`, `parse_humidity_calib_data`) and the
   measurement-burst parser (`bme280_parse_sensor_data`). Each has an encoder
   and round-trip lemmas in both directions.
2. **Fixed-point compensation.** These are `compensate_temperature`,
   `compensate_pressure`, `compensate_humidity` and the dispatcher
   `bme280_compensate_data`.
   - The C arithmetic is written out: 32-bit wrap-around (`ToS32`, `ToU32`),
     truncating division (`Div`), and mixed `u32`/`s32` expressions evaluated
     unsigned and then reinterpreted.
3. **Settings reconciler.** This covers the read-modify-write helpers for
   ctrl_meas, ctrl_hum and config, `parse_device_settings`,
   `bme280_set_sensor_settings` and `bme280_get_sensor_settings`.
4. **Power-mode and soft-reset protocol.** This covers `write_power_mode`,
   `put_device_to_sleep`, `bme280_get/set_sensor_mode` and
   `bme280_soft_reset` with its bounded status poll. It also covers
   `bme280_init` with `get_calib_data`, and `bme280_get_sensor_data`.

Modules, in dependency order:
- `Bits`: C integer semantics and recursive bitwise OR/AND on naturals.
- `Registers`: status codes, register map, selector masks, bit-field unions.
- `Calibration`, `RawData`, `Compensation`.
- `Transport`: the register-file model.
- `Settings`, `Power`, `Driver`.

## The device and the bus

`bme280_get_regs` and `bme280_set_regs` run over an abstract device.
- **`Chip`** is the 256-byte register file. It also holds the humidity
  oversampling the device is actually using (`humLatched`).
- **`Bus`** is a chip plus the trace of every transaction attempted. A
  transaction is a block `Read(addr, len)` or a one-byte `Write(addr, value)`.
- **`Env`** holds what the driver cannot see:
  - `fails`: the set of transaction positions that fail with `CommFail`;
  - `status`: what the status register reads at each position (the NVM copy
    runs on its own clock);
  - `junk`: the value of uninitialised stack bytes the driver sends or
    returns.

Protocol steps are methods that take a `Bus` and an `Env` and return a
status and the new `Bus`.

`Transport.Commit` states the device's reaction to a successful write. It is
a modelling assumption. Only the ctrl_hum rule comes from the header's
comments (`include/bme280.h:195-201`); the others go beyond them:
- writing 0xB6 to 0xE0 resets ctrl_hum, ctrl_meas and config to 0 (the
  calibration registers keep their values). The header says nothing about
  the values after a reset; 0 is assumed;
- a ctrl_hum write only takes effect at the next ctrl_meas write;
- a config write is ignored unless the device is asleep. The header says
  such writes "may be ignored" in normal mode; the model takes the worst
  case, always ignoring them in every mode other than sleep, forced mode
  included;
- all other registers are read-only.

A failed read leaves its destination as it was. A failed write changes
nothing.

## Where the code departs from its own comments and names

The model follows the code in each of these cases.
- **Soft-reset poll.** The comment at `src/bme280.c:625` says "Retry soft
  reset command 5 times". The code writes the reset command once and
  retries only the status read. The `retries--` test at
  `src/bme280.c:642` allows six reads in all: one read, then one more per
  retry. A failed read after a busy one ends in `BME280_E_NVM_COPY_FAILED`,
  not `BME280_E_COMM_FAIL` (`include/bme280.h:21-23`), because the status
  variable keeps the busy byte.
- **The oversampling warning.** The header defines the warning
  `BME280_W_INVALID_OSRS_MACRO` (`include/bme280.h:26`). It also documents a
  positive return of `bme280_set_sensor_settings` as a warning
  (`include/bme280.h:297`). That function never returns it:
  `set_osrs_settings` starts from that code (`src/bme280.c:181`) but is only
  called when an oversampling bit is set (`src/bme280.c:561`). A selector
  with none of the five bits succeeds without writing anything when the
  device is asleep. An awake device is still put to sleep first
  (`src/bme280.c:551-554`), which sends the reset and the reload writes.
- **Pressure branch writes temperature.** The header describes
  `BME280_OSRS_PRESS_SEL` as "To set pressure oversampling"
  (`include/bme280.h:290`). Under that selector,
  `set_osrs_press_temp_settings` assigns the pressure oversampling to
  `osrs_t` (`src/bme280.c:135`), so the ctrl_meas update never changes
  `osrs_p`. `put_device_to_sleep` replays the settings after a reset. As a
  result, changing the mode or settings of a device in normal or forced mode
  loses its pressure oversampling.
- **Humidity failures can be masked.** The header documents a negative
  return as an error (`include/bme280.h:297`). In `set_osrs_settings`
  (`src/bme280.c:179-193`) the status is that of the last step, so a failed
  humidity update is hidden by a later successful ctrl_meas update.
- **Chip id.** The header defines `BME280_CHIP_ID` as 0x60
  (`include/bme280.h:33`). `bme280_init` stores the chip id it reads
  (`src/bme280.c:429`) without comparing it with that value.
- **Mode after a failed read.** The header lists the modes
  `bme280_get_sensor_mode` reports as 0, 1 and 3 (`include/bme280.h:306-312`).
  The function stores the mode bits even when its read fails
  (`src/bme280.c:587`). The value is then the low bits of an uninitialised
  byte (`junk`), which can also be 2.

Another behaviour of the code the model keeps:
- **Partial calibration update.** `get_calib_data` decodes the first block
  before reading the second (`src/bme280.c:83-84`). When the second read
  fails, the record keeps the first block decoded.

## Model

| member | source | states |
|---|---|---|
| Bits.Div | src/bme280.c:310-317 | C's signed division truncates toward zero: for a ≥ 0 the quotient is the floor, for a < 0 the ceiling |
| Bits.Clamp | src/bme280.c:366-370 | the clamped value lies in [lo, hi] and is the input itself when that already does |
| Bits.OrDisjoint | include/bme280.h:113 | OR-ing a value shifted left by k bits with one below 2^k is their sum (by induction on k) |
| Bits.OrS32Disjoint | src/bme280.c:63-68 | OR-ing a sign-extended multiple of 16 (or 256) with a nibble (or byte) in `int` gives the arithmetic sum, negative values included |
| Registers.StatusCodeSigns | include/bme280.h:15-26 | OK is 0, the warning is positive, every error code is negative, and the codes are pairwise distinct |
| Registers.SelectorMasks | include/bme280.h:52-63 | BME280_ALL is PRESS \| TEMP \| HUM; ALL_SETTINGS_SEL is the OR of the five selectors; the oversampling (0x07) and filter/standby (0x18) groups are disjoint and together make 0x1F |
| Registers.EnumCodesFit | include/bme280.h:65-93 | every oversampling, filter and standby code fits in 3 bits and every power mode fits in 2 |
| Registers.SelectorBits | src/bme280.c:103-106 | a selector selects a single-bit mask exactly when that bit is set, and a group mask exactly when one of its bits is |
| Registers.SelectsGroups | src/bme280.c:560-566 | the oversampling group is selected iff one of its three bits is, and likewise for the pressure/temperature pair and the filter/standby group |
| Registers.AllSettingsSelected | src/bme280.c:228-234 | ALL_SETTINGS_SEL selects each of the five settings and both groups |
| Registers.ConcatBytes | include/bme280.h:113 | the macro is the big-endian pair value msb·256 + lsb, a 16-bit unsigned number |
| Registers.ConcatBytesSigned | src/bme280.c:31-48 | although the macro lacks outer parentheses, so the `(s16)` cast binds to the shifted byte only, the stored value is the two's-complement reading of the pair |
| Registers.CtrlMeasLayout | include/bme280.h:217-224 | with mode in bits 0-1, osrs_p in 2-4 and osrs_t in 5-7, pack after unpack is the identity on bytes and unpack after pack the identity on fields |
| Registers.CtrlMeasFieldUpdate | include/bme280.h:217-224 | assigning the mode changes bits 0-1 only; assigning osrs_t changes bits 5-7 only |
| Registers.CtrlHumLayout | include/bme280.h:202-208 | osrs_h is bits 0-2, the reserved bits 3-7 are separate, and pack/unpack are mutually inverse |
| Registers.ConfigLayout | include/bme280.h:182-193 | with spi3w_en in bit 0, reserved in bit 1, filter in 2-4 and t_sb in 5-7, pack and unpack are mutually inverse |
| Registers.ConfigFieldUpdate | include/bme280.h:182-193 | assigning filter or t_sb leaves every other config bit unchanged |
| Calibration.DigH4 | src/bme280.c:63-65 | dig_H4 is sext8(byte 3)·16 + low nibble of byte 4, in [-2048, 2047] |
| Calibration.DigH5 | src/bme280.c:66-68 | dig_H5 is sext8(byte 5)·16 + high nibble of byte 4, in [-2048, 2047] |
| Calibration.ParseTempPressCalib | src/bme280.c:26-50 | each 16-bit coefficient is the little-endian pair of its bytes (signed where the field is s16); dig_H1 is byte 25; the humidity coefficients and t_fine are untouched |
| Calibration.ParseHumidityCalib | src/bme280.c:52-70 | dig_H2 is a signed little-endian pair, dig_H3 is byte 2, dig_H4/dig_H5 are the packed 12-bit values, dig_H6 = sext8(byte 6); all other fields are untouched |
| Calibration.TempPressCalibRoundTrip | src/bme280.c:26-50 | decoding the encoding of any record restores its twelve temperature/pressure coefficients and dig_H1 |
| Calibration.TempPressCalibBytesRoundTrip | src/bme280.c:26-50 | encoding a decoded 26-byte block gives the block back, apart from byte 24, which the parser ignores |
| Calibration.HumidityCalibRoundTrip | src/bme280.c:52-70 | decoding the encoding of any record with 12-bit dig_H4/dig_H5 restores its five humidity coefficients |
| Calibration.HumidityCalibBytesRoundTrip | src/bme280.c:52-70 | encoding a decoded 7-byte humidity block gives exactly the block back |
| RawData.ParseSensorData | src/bme280.c:684-704 | pressure = b0·4096 + b1·16 + b2/16 and temperature likewise on bytes 3-5, both < 2^20; humidity = b6·256 + b7 < 2^16 |
| RawData.SensorDataRoundTrip | src/bme280.c:684-704 | decoding the encoding of any in-range raw sample gives it back |
| RawData.SensorDataBytesRoundTrip | src/bme280.c:684-704 | encoding a decoded burst gives it back with the unused low nibbles of bytes 2 and 5 cleared |
| Compensation.TemperatureFromFine | src/bme280.c:364-370 | the temperature is always in [-4000, 8500]; for t_fine within ±2^28 nothing wraps and it is (t_fine·5 + 128)/256, truncated and clamped |
| Compensation.CompensateTemperature | src/bme280.c:349-373 | the result is in [-4000, 8500]; t_fine is the only calibration field written |
| Compensation.CompensatePressure | src/bme280.c:300-347 | the result is in [30000, 110000] and is exactly 30000 when the divisor var1 is 0 |
| Compensation.CompensateHumidity | src/bme280.c:375-407 | the result is in [0, 102400] and is var5 clamped to [0, 419430400], divided by 4096 |
| Compensation.CompensateData | src/bme280.c:706-742 | the status is OK; with no component bit the outputs are 0 and the calibration is unchanged; otherwise temperature runs first and pressure and humidity use the t_fine it stored |
| Compensation.SelectorIndependence | src/bme280.c:719-736 | each selected output equals the one BME280_ALL produces on the same inputs |
| Compensation.StaleFineTemperatureIrrelevant | src/bme280.c:723-736 | the t_fine left by an earlier call does not influence any output |
| Compensation.ReferenceTemperatureExample | src/bme280.c:349-373 | the Bosch reference compensation example (dig_T1 27504, dig_T2 26435, dig_T3 -1000, adc_T 519888) gives t_fine 128423 and 2508 (25.08 °C) |
| Compensation.ReferencePressureExample | src/bme280.c:300-347 | the pressure half of the same example (dig_P1..dig_P9 36477, -10685, 3024, 2855, 140, -7, 15500, -14600, 6000, adc_P 415148, t_fine 128423) gives 100654 Pa, the truncating `/ 16` of the last correction giving one pascal more than an arithmetic shift would |
| Transport.Commit | include/bme280.h:175-224 | the device's reaction to writes: reset, ctrl_hum latched by the next ctrl_meas write, config only taken while asleep, other registers unchanged |
| Transport.GetRegs | src/bme280.c:445-466 | a block read is one transaction; it succeeds iff that transaction goes through and the length is non-zero, and then returns the addressed registers |
| Transport.WriteBytes | src/bme280.c:490-497 | writes stop at the first failing transaction; exactly the writes before it take effect, in order |
| Transport.SetRegs | src/bme280.c:468-503 | length 0 gives InvalidLen with no transaction; otherwise it is the status and effect of the write loop |
| Transport.GetReg | src/bme280.c:445-466 | a one-byte read returns the register on success and leaves the destination as it was on failure |
| Transport.ModifyReg | src/bme280.c:120-146 | read-modify-write: a failed read ends the step; otherwise the updated byte of what was read is written back |
| Settings.ParseDeviceSettings | src/bme280.c:108-118 | each setting is its bit field of ctrl_hum, ctrl_meas or config |
| Settings.ParseDeviceSettingsInverts | src/bme280.c:108-118 | reading settings from registers packed from in-range settings gives those settings back |
| Settings.ReadSettings | src/bme280.c:518-533 | ctrl_hum, ctrl_meas, config are read in that order, stopping at the first failure; success gives the parsed registers, failure keeps the old settings |
| Settings.PressTempByte | src/bme280.c:134-140 | mode and osrs_p are kept; osrs_t takes the temperature oversampling if selected, else the pressure oversampling if selected |
| Settings.PressureOversamplingNeverWritten | src/bme280.c:134-140 | for every selector the ctrl_meas update keeps osrs_p and the mode |
| Settings.SetOsrsPressTemp | src/bme280.c:120-146 | the ctrl_meas read-modify-write: its transactions, status and effect on the device |
| Settings.HumByte | src/bme280.c:155-158 | the ctrl_hum byte holds the humidity oversampling in bits 0-2, with uninitialised bits above |
| Settings.SetOsrsHumidity | src/bme280.c:148-176 | the transactions are a prefix of the ctrl_hum write, the ctrl_meas read and the rewrite of the byte read, stopping at the first failure, and success means all three took place; ctrl_meas never changes; on success the new humidity oversampling is in effect |
| Settings.SetOsrs | src/bme280.c:178-193 | InvalidOsrsMacro iff no oversampling bit is set; the humidity step comes first; a humidity failure is masked by a later successful ctrl_meas step |
| Settings.ConfigByte | src/bme280.c:209-215 | bits 0-1 are kept; filter and t_sb come from the settings when selected and are kept otherwise |
| Settings.SetFilterStandby | src/bme280.c:195-221 | the config read-modify-write, which the device takes only while asleep |
| Settings.ReloadDeviceSettings | src/bme280.c:223-238 | all oversampling, then filter and standby if that succeeded; the mode and osrs_p bits are kept whatever the outcome; on success osrs_t and the filter/standby fields come from the settings and the humidity oversampling is latched |
| Power.PowerModeByte | src/bme280.c:254 | the mode field becomes the low two bits of the requested mode and the oversampling bits are kept |
| Power.WritePowerMode | src/bme280.c:242-259 | the ctrl_meas read-modify-write of the mode field: its transactions, status and effect |
| Power.GetSensorMode | src/bme280.c:575-591 | one read of ctrl_meas; the mode is its low two bits, or those of the uninitialised byte when the read fails |
| Power.PollNvmCopy | src/bme280.c:637-643 | between 1 and 6 status reads; every read but the last reported the copy running; fewer than 6 means the last one did not; the status byte says busy iff the last read did or failed after a busy one |
| Power.SoftReset | src/bme280.c:618-652 | the reset write, then the poll; CommFail iff the write or the first status read fails; OK iff the last read goes through with the bit clear; otherwise NvmCopyFailed, ending with a status read |
| Power.ResetAndReload | src/bme280.c:287-292 | a failed reset write leaves the device as it was, otherwise mode and osrs_p end 0; after a successful reset and reload osrs_t and config come from the snapshot, ctrl_hum is 0 or the rewritten byte |
| Power.PutDeviceToSleep | src/bme280.c:261-296 | on success the trace is the three register reads and the reset write, followed by the poll and reload; the device is asleep with the snapshot replayed except osrs_p (see SleptFrom); on any outcome the device is as it was or reset into sleep |
| Power.ReloadedAfterReset | src/bme280.c:285-292 | a device after reset and a successful replay of its snapshot is related to the one before as SleptFrom says |
| Power.EnsureAsleep | src/bme280.c:604-608 | one mode read; an asleep device is left alone, an awake one goes through the sleep sequence (the mode read, the three settings reads, the reset write) and ends as SleptFrom says on success; the device is always either as it was or reset into sleep |
| Power.SetSensorMode | src/bme280.c:593-616 | the mode is written only if the device is asleep first; success ends with a ctrl_meas read and write whose mode field is the requested one; an awake device first sees the mode read, the three settings reads and the reset, and ends with the requested mode, osrs_p 0, its osrs_t, and config and ctrl_hum as ReloadedFrom says; any failure skips the mode write, leaving the device as it was (always when it was asleep) or reset into sleep |
| Power.ModeWrittenAfterSleep | src/bme280.c:612-613 | the mode write after the sleep sequence sets only the mode field and keeps the reloaded config, ctrl_hum and other registers |
| Driver.ChipCalibEncodesBlocks | src/bme280.c:72-99 | the record decoded from a device encodes back to its two calibration blocks, so decoding loses nothing the formulas use |
| Driver.ReadTempPressCalib | src/bme280.c:79-84 | one 26-byte read at 0x88; on success the record is decoded from the device's block, on failure it is unchanged |
| Driver.ReadHumidityCalib | src/bme280.c:86-93 | one 7-byte read at 0xE1; on success the humidity coefficients are decoded from the device's block, on failure it is unchanged |
| Driver.GetCalibData | src/bme280.c:72-99 | the humidity block is read only if the first read succeeded; a second-read failure leaves the first block decoded; success gives the record decoded from the device |
| Driver.Init | src/bme280.c:411-443 | the chip id read, soft reset, then the calibration read, each only if the previous step succeeded; on success the chip id and calibration are those of the device |
| Driver.GetSensorSettings | src/bme280.c:505-537 | the reads of ctrl_hum, ctrl_meas and config stop at the first failure, and success means all three took place; on success the settings are those the registers hold; on failure they are kept |
| Driver.ApplySettings | src/bme280.c:560-569 | on a sleeping device a successful update applies the selected settings (SettingsApplied, osrs_h included); whatever the outcome the mode bits and config bits 0-1 are kept, an unselected ctrl_hum is kept byte for byte, and no other register changes; an empty selector does nothing and succeeds |
| Driver.SetSensorSettings | src/bme280.c:539-573 | never InvalidOsrsMacro; success leaves the device asleep with the selected settings applied (SettingsApplied) relative to the settings before, with osrs_p cleared, and osrs_h kept or cleared, when it had to be put to sleep; config bits 0-1 are kept on an asleep device and cleared by the reset otherwise; an unselected ctrl_hum on an asleep device is kept; no other register changes |
| Driver.SleptSettings | src/bme280.c:261-296 | going to sleep keeps osrs_t, filter and standby, clears osrs_p, keeps or clears osrs_h, and clears config bits 0-1 |
| Driver.GetSensorData | src/bme280.c:654-682 | one 8-byte read; on success the outputs are the compensated decoded burst and only t_fine changes; on failure the outputs and the device record are unchanged |

## Left out

- The sysfs/procfs glue (`src/bme280_regs_mapp.c`, `src/bme280_info_mapp.c`, their headers): the global device pointer, the device list, the mutex, `sscanf`/`sprintf` and `copy_to_user`. This is OS plumbing.
- `src/module.c`: it holds only empty probe/remove stubs.
- `bme280_get_sensor_data_forced`: it is called by the glue but defined in none of the source files, so it is not part of this model.
- The I2C calls inside `bme280_get_regs`/`bme280_set_regs`: they are replaced by the register-file model above. A short read that returns fewer bytes than asked is treated like a full one, since the driver does not distinguish them.
- `msleep(2)` in the soft-reset poll: time is not modelled; only the number of status reads is counted.
- The NULL-pointer checks (`null_ptr_check`, the `client` and `comp_data` checks, `src/bme280.c:713-717`): Dafny values cannot be null, so `NullPtr` is never produced.
- `i2c_set_clientdata` and the `client` field in `bme280_init`: these are bus-handle bookkeeping with no effect on the device.
- Uninitialised stack bytes: they are a single value `junk` per environment rather than a fresh value at each use.
- Transport.Commit: the device's exact power-on values and its behaviour in forced mode (the return to sleep after one measurement) are not modelled; only the registers the driver writes are. The reset-to-0 values and the rule that a config write is always ignored outside sleep mode (the header only says it "may be ignored" in normal mode) are assumptions, not facts from the source.
- Compensation.CompensateHumidity: no documented reference vector for the humidity formula is available, so unlike temperature and pressure it has no checked example value, only its bound.

=== FILE: bits.dfy ===
/** The C integer semantics the driver relies on: fixed-width integer types,
    conversions between them (reduction modulo 2^n, as GCC defines it; the
    kernel is built with -fno-strict-overflow, so signed overflow wraps the
    same way), signed division that truncates toward zero, and the bitwise
    operators `|` and `&` on non-negative operands. */
module Bits {

  type uint1 = x: int | 0 <= x < 2
  type uint2 = x: int | 0 <= x < 4
  type uint3 = x: int | 0 <= x < 8
  type uint5 = x: int | 0 <= x < 32
  type uint8 = x: int | 0 <= x < 0x100
  type uint16 = x: int | 0 <= x < 0x1_0000
  type uint32 = x: int | 0 <= x < 0x1_0000_0000
  type int8 = x: int | -0x80 <= x < 0x80
  type int16 = x: int | -0x8000 <= x < 0x8000
  type int32 = x: int | -0x8000_0000 <= x < 0x8000_0000

  function Pow2(k: nat): (r: nat)
    ensures r >= 1
  {
    if k == 0 then 1 else 2 * Pow2(k - 1)
  }

  /** Conversion to `u32`: reduction modulo 2^32. */
  function ToU32(x: int): (r: uint32)
    ensures 0 <= x < 0x1_0000_0000 ==> r == x
  {
    x % 0x1_0000_0000
  }

  /** Conversion to `s8`: the unique `s8` congruent to `x` modulo 2^8. */
  function ToS8(x: int): (r: int8)
    ensures -0x80 <= x < 0x80 ==> r == x
    ensures 0x80 <= x < 0x100 ==> r == x - 0x100
  {
    var m := x % 0x100;
    if m < 0x80 then m else m - 0x100
  }

  /** Conversion to `s16`: the unique `s16` congruent to `x` modulo 2^16. */
  function ToS16(x: int): (r: int16)
    ensures -0x8000 <= x < 0x8000 ==> r == x
  {
    var m := x % 0x1_0000;
    if m < 0x8000 then m else m - 0x1_0000
  }

  /** Conversion to `s32`: the unique `s32` congruent to `x` modulo 2^32.
      Every signed 32-bit `+`, `-` and `*` of the driver goes through it. */
  function ToS32(x: int): (r: int32)
    ensures -0x8000_0000 <= x < 0x8000_0000 ==> r == x
  {
    var m := x % 0x1_0000_0000;
    if m < 0x8000_0000 then m else m - 0x1_0000_0000
  }

  /** C's `/` on a signed dividend and a positive divisor: the quotient is
      rounded toward zero (Dafny's `/` rounds toward minus infinity). */
  function Div(a: int, b: int): (q: int)
    requires b > 0
    ensures a >= 0 ==> q * b <= a < q * b + b
    ensures a < 0 ==> q * b - b < a <= q * b
  {
    if a >= 0 then a / b else -((-a) / b)
  }

  /** The driver's range checks: `if (x < lo) x = lo; else if (x > hi) x = hi;`. */
  function Clamp(x: int, lo: int, hi: int): (r: int)
    requires lo <= hi
    ensures lo <= r <= hi
    ensures lo <= x <= hi ==> r == x
  {
    if x < lo then lo else if x > hi then hi else x
  }

  /** C's `|` on non-negative operands, one binary digit at a time. */
  function Or(a: nat, b: nat): (r: nat)
    decreases a + b
  {
    if a == 0 then b
    else if b == 0 then a
    else 2 * Or(a / 2, b / 2) + (if a % 2 == 1 || b % 2 == 1 then 1 else 0)
  }

  /** C's `&` on non-negative operands, one binary digit at a time. */
  function And(a: nat, b: nat): (r: nat)
    decreases a
  {
    if a == 0 || b == 0 then 0
    else 2 * And(a / 2, b / 2) + (if a % 2 == 1 && b % 2 == 1 then 1 else 0)
  }

  /** C's `|` on two `int` operands: both are read as 32-bit patterns. */
  function OrS32(a: int, b: int): (r: int32)
  {
    ToS32(Or(ToU32(a), ToU32(b)))
  }

  /** OR of a multiple of 2^k with a value below 2^k adds them: the set bits
      do not overlap. */
  lemma {:induction false} OrDisjoint(q: nat, b: nat, k: nat)
    requires b < Pow2(k)
    ensures Or(Pow2(k) * q, b) == Pow2(k) * q + b
  {
    var a := Pow2(k) * q;
    if k == 0 || a == 0 || b == 0 {
    } else {
      var h := Pow2(k - 1) * q;
      assert a == 2 * h;
      assert a / 2 == h && a % 2 == 0;
      OrDisjoint(q, b / 2, k - 1);
      assert Or(a, b) == 2 * Or(h, b / 2) + b % 2;
    }
  }

  /** `|` is commutative. */
  lemma {:induction false} OrCommutes(a: nat, b: nat)
    ensures Or(a, b) == Or(b, a)
    decreases a + b
  {
    if a != 0 && b != 0 {
      OrCommutes(a / 2, b / 2);
    }
  }

  /** `&` with a mask of `k` low ones keeps the remainder below 2^k. */
  lemma {:induction false} AndLowMask(q: nat, r: nat, k: nat)
    requires r < Pow2(k)
    ensures And(Pow2(k) * q + r, Pow2(k) - 1) == r
  {
    var x := Pow2(k) * q + r;
    var m := Pow2(k) - 1;
    if k == 0 || x == 0 {
    } else {
      var h := Pow2(k - 1) * q;
      assert x == 2 * (h + r / 2) + r % 2;
      assert x / 2 == h + r / 2 && x % 2 == r % 2;
      assert m / 2 == Pow2(k - 1) - 1 && m % 2 == 1;
      AndLowMask(q, r / 2, k - 1);
      assert And(x, m) == 2 * And(x / 2, m / 2) + r % 2;
    }
  }

  /** A mask with a clear lowest bit ignores the lowest bit of the operand. */
  lemma AndShift(x: nat, c: nat, m: nat)
    requires c < 2
    ensures And(2 * x + c, 2 * m) == 2 * And(x, m)
  {
    if 2 * x + c != 0 && m != 0 {
      assert (2 * x + c) / 2 == x && (2 * m) / 2 == m;
    }
  }

  /** OR on `int` of a multiple of 2^k (k is 4 or 8) with a value below 2^k
      adds them too, also when the first operand is negative, as long as the
      sum is an `s32`. */
  lemma OrS32Disjoint(a: int32, b: nat, k: nat)
    requires (k == 4 || k == 8) && b < Pow2(k) && a % Pow2(k) == 0
    requires -0x8000_0000 <= a + b < 0x8000_0000
    ensures OrS32(a, b) == a + b
  {
    var u: nat := if a >= 0 then a else a + 0x1_0000_0000;
    assert ToU32(a) == u && ToU32(b) == b;
    AlignedPattern(a, b, k);
    OrUnsignedDisjoint(u, b, k);
    ToS32OfSum(a + b, u + b);
  }

  lemma AlignedPattern(a: int32, b: nat, k: nat)
    requires (k == 4 || k == 8) && b < Pow2(k) && a % Pow2(k) == 0
    ensures (if a >= 0 then a else a + 0x1_0000_0000) % Pow2(k) == 0
    ensures a < 0 ==> a + b < 0
  {
    if k == 4 {
      assert Pow2(4) == 16;
    } else {
      assert Pow2(8) == 256;
    }
  }

  lemma OrUnsignedDisjoint(u: nat, b: nat, k: nat)
    requires (k == 4 || k == 8) && b < Pow2(k) && u % Pow2(k) == 0 && u < 0x1_0000_0000
    ensures Or(u, b) == u + b && u + b < 0x1_0000_0000
  {
    if k == 4 {
      assert Pow2(4) == 16;
      assert 16 * (u / 16) == u && u / 16 <= 0xFFF_FFFF;
      OrDisjoint(u / 16, b, 4);
    } else {
      assert Pow2(8) == 256;
      assert 256 * (u / 256) == u && u / 256 <= 0xFF_FFFF;
      OrDisjoint(u / 256, b, 8);
    }
  }

  lemma ToS32OfSum(s: int, m: nat)
    requires -0x8000_0000 <= s < 0x8000_0000 && m < 0x1_0000_0000
    requires m == (if s >= 0 then s else s + 0x1_0000_0000)
    ensures ToS32(m) == s
  {
    assert m % 0x1_0000_0000 == m;
  }
}

=== FILE: calibration.dfy ===
/** The factory calibration coefficients and the two decoders that fill
    them from the 26-byte block at 0x88 and the 7-byte block at 0xE1. */
module Calibration {
  import opened Bits
  import opened Registers

  /** `struct bme280_calib_data`: the eighteen coefficients and `t_fine`,
      the fine temperature the temperature pass leaves for the other two. */
  datatype CalibData = CalibData(
    digT1: uint16, digT2: int16, digT3: int16,
    digP1: uint16, digP2: int16, digP3: int16, digP4: int16, digP5: int16,
    digP6: int16, digP7: int16, digP8: int16, digP9: int16,
    digH1: uint8, digH2: int16, digH3: uint8, digH4: int16, digH5: int16, digH6: int8,
    tFine: int32)

  /** Low byte of a 16-bit pattern (two's complement for negative values). */
  function Lo(v: int): (r: uint8)
  {
    v % 256
  }

  /** High byte of a 16-bit pattern (two's complement for negative values). */
  function Hi(v: int): (r: uint8)
  {
    (v / 256) % 256
  }

  /** `(s16)(s8)hi * 16 | lo`, the way `dig_H4` and `dig_H5` are assembled:
      a signed high byte shifted up one nibble joined with a low nibble. */
  function JoinNibble(hi: uint8, lo: nat): (r: int16)
    requires lo < 16
    ensures r == Signed8(hi) * 16 + lo
    ensures -2048 <= r <= 2047
  {
    var high := ToS16(ToS8(hi) * 16);
    assert high == Signed8(hi) * 16 && high % 16 == 0;
    assert Pow2(4) == 16;
    OrS32Disjoint(high, lo, 4);
    ToS16(OrS32(high, ToS16(lo)))
  }

  /** `b & 0x0F` is the low nibble of `b`. */
  lemma LowNibble(b: uint8)
    ensures And(b, 0x0F) == b % 16
  {
    assert Pow2(4) == 16;
    assert b == Pow2(4) * (b / 16) + b % 16;
    AndLowMask(b / 16, b % 16, 4);
  }

  /** `dig_H4`: the signed byte 3 followed by the low nibble of byte 4. */
  function DigH4(b3: uint8, b4: uint8): (r: int16)
    ensures r == Signed8(b3) * 16 + b4 % 16
    ensures -2048 <= r <= 2047
  {
    LowNibble(b4);
    JoinNibble(b3, And(b4, 0x0F))
  }

  /** `dig_H5`: the signed byte 5 followed by the high nibble of byte 4. */
  function DigH5(b5: uint8, b4: uint8): (r: int16)
    ensures r == Signed8(b5) * 16 + b4 / 16
    ensures -2048 <= r <= 2047
  {
    JoinNibble(b5, b4 / 16)
  }

  /** Decodes the temperature and pressure block: each coefficient is a
      little-endian pair, the unsigned ones read plainly and the signed ones
      in two's complement, and `dig_H1` is the last byte; byte 24 is not
      used. Every other field, `t_fine` included, is left as it was. */
  function ParseTempPressCalib(calib: CalibData, regData: seq<uint8>): (r: CalibData)
    requires |regData| >= TEMP_PRESS_CALIB_DATA_LEN
    ensures r.digT1 == regData[1] as int * 256 + regData[0]
    ensures r.digT2 == Signed16(regData[3], regData[2])
    ensures r.digT3 == Signed16(regData[5], regData[4])
    ensures r.digP1 == regData[7] as int * 256 + regData[6]
    ensures r.digP2 == Signed16(regData[9], regData[8])
    ensures r.digP3 == Signed16(regData[11], regData[10])
    ensures r.digP4 == Signed16(regData[13], regData[12])
    ensures r.digP5 == Signed16(regData[15], regData[14])
    ensures r.digP6 == Signed16(regData[17], regData[16])
    ensures r.digP7 == Signed16(regData[19], regData[18])
    ensures r.digP8 == Signed16(regData[21], regData[20])
    ensures r.digP9 == Signed16(regData[23], regData[22])
    ensures r.digH1 == regData[25]
    ensures r.digH2 == calib.digH2 && r.digH3 == calib.digH3 && r.digH4 == calib.digH4
    ensures r.digH5 == calib.digH5 && r.digH6 == calib.digH6 && r.tFine == calib.tFine
  {
    calib.(
      digT1 := ConcatBytes(regData[1], regData[0]),
      digT2 := ConcatBytesSigned(regData[3], regData[2]),
      digT3 := ConcatBytesSigned(regData[5], regData[4]),
      digP1 := ConcatBytes(regData[7], regData[6]),
      digP2 := ConcatBytesSigned(regData[9], regData[8]),
      digP3 := ConcatBytesSigned(regData[11], regData[10]),
      digP4 := ConcatBytesSigned(regData[13], regData[12]),
      digP5 := ConcatBytesSigned(regData[15], regData[14]),
      digP6 := ConcatBytesSigned(regData[17], regData[16]),
      digP7 := ConcatBytesSigned(regData[19], regData[18]),
      digP8 := ConcatBytesSigned(regData[21], regData[20]),
      digP9 := ConcatBytesSigned(regData[23], regData[22]),
      digH1 := regData[25])
  }

  /** `calib` with new humidity coefficients `dig_H2`..`dig_H6`. */
  function WithHumidity(calib: CalibData, h2: int16, h3: uint8, h4: int16, h5: int16, h6: int8): (r: CalibData)
    ensures r.digH2 == h2 && r.digH3 == h3 && r.digH4 == h4 && r.digH5 == h5 && r.digH6 == h6
    ensures r == calib.(digH2 := h2, digH3 := h3, digH4 := h4, digH5 := h5, digH6 := h6)
  {
    calib.(digH2 := h2, digH3 := h3, digH4 := h4, digH5 := h5, digH6 := h6)
  }

  /** Decodes the humidity block: `dig_H2` is a signed little-endian pair,
      `dig_H3` a byte, `dig_H4` and `dig_H5` are 12-bit signed values that
      share the nibbles of byte 4, and `dig_H6` is a signed byte. Every other
      field is left as it was. */
  function ParseHumidityCalib(calib: CalibData, regData: seq<uint8>): (r: CalibData)
    requires |regData| >= HUM_CALIB_DATA_LEN
    ensures r.digH2 == Signed16(regData[1], regData[0])
    ensures r.digH3 == regData[2]
    ensures r.digH4 == Signed8(regData[3]) * 16 + regData[4] % 16
    ensures r.digH5 == Signed8(regData[5]) * 16 + regData[4] / 16
    ensures r.digH6 == Signed8(regData[6])
    ensures -2048 <= r.digH4 <= 2047 && -2048 <= r.digH5 <= 2047
    ensures r == calib.(digH2 := r.digH2, digH3 := r.digH3, digH4 := r.digH4,
                        digH5 := r.digH5, digH6 := r.digH6)
  {
    WithHumidity(calib, ConcatBytesSigned(regData[1], regData[0]), regData[2],
                 DigH4(regData[3], regData[4]), DigH5(regData[5], regData[4]), ToS8(regData[6]))
  }

  /** The block at 0x88 that the device would have to hold for `c`'s
      temperature and pressure coefficients (byte 24 is unused and zero). */
  function EncodeTempPressCalib(c: CalibData): (bytes: seq<uint8>)
    ensures |bytes| == TEMP_PRESS_CALIB_DATA_LEN
  {
    [Lo(c.digT1), Hi(c.digT1), Lo(c.digT2), Hi(c.digT2), Lo(c.digT3), Hi(c.digT3),
     Lo(c.digP1), Hi(c.digP1), Lo(c.digP2), Hi(c.digP2), Lo(c.digP3), Hi(c.digP3),
     Lo(c.digP4), Hi(c.digP4), Lo(c.digP5), Hi(c.digP5), Lo(c.digP6), Hi(c.digP6),
     Lo(c.digP7), Hi(c.digP7), Lo(c.digP8), Hi(c.digP8), Lo(c.digP9), Hi(c.digP9),
     0, c.digH1]
  }

  /** The block at 0xE1 that the device would have to hold for `c`'s
      humidity coefficients; `dig_H4` and `dig_H5` must be 12-bit values. */
  function EncodeHumidityCalib(c: CalibData): (bytes: seq<uint8>)
    requires -2048 <= c.digH4 <= 2047 && -2048 <= c.digH5 <= 2047
    ensures |bytes| == HUM_CALIB_DATA_LEN
  {
    [Lo(c.digH2), Hi(c.digH2), c.digH3, (c.digH4 / 16) % 256,
     c.digH4 % 16 + 16 * (c.digH5 % 16), (c.digH5 / 16) % 256, c.digH6 % 256]
  }

  lemma PairOfUnsigned(v: uint16)
    ensures Hi(v) * 256 + Lo(v) == v
  {
  }

  lemma PairOfSigned(v: int16)
    ensures Signed16(Hi(v), Lo(v)) == v
  {
  }

  lemma SignedPairBytes(msb: uint8, lsb: uint8)
    ensures Hi(Signed16(msb, lsb)) == msb && Lo(Signed16(msb, lsb)) == lsb
  {
  }

  lemma UnsignedPairBytes(msb: uint8, lsb: uint8)
    ensures Hi(msb as int * 256 + lsb) == msb && Lo(msb as int * 256 + lsb) == lsb
  {
  }

  lemma NibbleSplit(hi: uint8, lo: nat)
    requires lo < 16
    ensures (Signed8(hi) * 16 + lo) / 16 == Signed8(hi) && (Signed8(hi) * 16 + lo) % 16 == lo
    ensures Signed8(hi) % 256 == hi
  {
  }

  lemma NibbleBytes(v: int)
    requires -2048 <= v <= 2047
    ensures Signed8((v / 16) % 256) * 16 + v % 16 == v
  {
  }

  /** Decoding an encoded temperature/pressure block gives back every
      coefficient of that block. */
  lemma TempPressCalibRoundTrip(calib: CalibData, c: CalibData)
    ensures ParseTempPressCalib(calib, EncodeTempPressCalib(c))
            == calib.(digT1 := c.digT1, digT2 := c.digT2, digT3 := c.digT3,
                      digP1 := c.digP1, digP2 := c.digP2, digP3 := c.digP3,
                      digP4 := c.digP4, digP5 := c.digP5, digP6 := c.digP6,
                      digP7 := c.digP7, digP8 := c.digP8, digP9 := c.digP9,
                      digH1 := c.digH1)
  {
    PairOfUnsigned(c.digT1);
    PairOfSigned(c.digT2);
    PairOfSigned(c.digT3);
    PairOfUnsigned(c.digP1);
    PairOfSigned(c.digP2);
    PairOfSigned(c.digP3);
    PairOfSigned(c.digP4);
    PairOfSigned(c.digP5);
    PairOfSigned(c.digP6);
    PairOfSigned(c.digP7);
    PairOfSigned(c.digP8);
    PairOfSigned(c.digP9);
  }

  /** Decoding then encoding a temperature/pressure block reproduces every
      byte except the unused byte 24: no information is dropped. */
  lemma TempPressCalibBytesRoundTrip(calib: CalibData, regData: seq<uint8>)
    requires |regData| == TEMP_PRESS_CALIB_DATA_LEN
    ensures EncodeTempPressCalib(ParseTempPressCalib(calib, regData)) == regData[24 := 0]
  {
    TempPressBytesOf(ParseTempPressCalib(calib, regData), regData);
  }

  /** Coefficients that are the pairs of a block encode back to that block. */
  lemma TempPressBytesOf(c: CalibData, regData: seq<uint8>)
    requires |regData| == TEMP_PRESS_CALIB_DATA_LEN
    requires c.digT1 == regData[1] as int * 256 + regData[0]
    requires c.digT2 == Signed16(regData[3], regData[2]) && c.digT3 == Signed16(regData[5], regData[4])
    requires c.digP1 == regData[7] as int * 256 + regData[6]
    requires c.digP2 == Signed16(regData[9], regData[8]) && c.digP3 == Signed16(regData[11], regData[10])
    requires c.digP4 == Signed16(regData[13], regData[12]) && c.digP5 == Signed16(regData[15], regData[14])
    requires c.digP6 == Signed16(regData[17], regData[16]) && c.digP7 == Signed16(regData[19], regData[18])
    requires c.digP8 == Signed16(regData[21], regData[20]) && c.digP9 == Signed16(regData[23], regData[22])
    requires c.digH1 == regData[25]
    ensures EncodeTempPressCalib(c) == regData[24 := 0]
  {
    var e := EncodeTempPressCalib(c);
    var d := regData[24 := 0];
    UnsignedPairBytes(regData[1], regData[0]);
    SignedPairBytes(regData[3], regData[2]);
    SignedPairBytes(regData[5], regData[4]);
    UnsignedPairBytes(regData[7], regData[6]);
    SignedPairBytes(regData[9], regData[8]);
    SignedPairBytes(regData[11], regData[10]);
    SignedPairBytes(regData[13], regData[12]);
    SignedPairBytes(regData[15], regData[14]);
    SignedPairBytes(regData[17], regData[16]);
    SignedPairBytes(regData[19], regData[18]);
    SignedPairBytes(regData[21], regData[20]);
    SignedPairBytes(regData[23], regData[22]);
    assert e == [d[0], d[1], d[2], d[3], d[4], d[5], d[6], d[7], d[8], d[9], d[10], d[11], d[12],
                 d[13], d[14], d[15], d[16], d[17], d[18], d[19], d[20], d[21], d[22], d[23], d[24], d[25]];
  }

  /** Decoding an encoded humidity block gives back the humidity
      coefficients. */
  lemma HumidityCalibRoundTrip(calib: CalibData, c: CalibData)
    requires -2048 <= c.digH4 <= 2047 && -2048 <= c.digH5 <= 2047
    ensures ParseHumidityCalib(calib, EncodeHumidityCalib(c))
            == calib.(digH2 := c.digH2, digH3 := c.digH3, digH4 := c.digH4,
                      digH5 := c.digH5, digH6 := c.digH6)
  {
    var e := EncodeHumidityCalib(c);
    PairOfSigned(c.digH2);
    NibbleBytes(c.digH4);
    NibbleBytes(c.digH5);
    assert e[4] % 16 == c.digH4 % 16 && e[4] / 16 == c.digH5 % 16;
  }

  /** Decoding then encoding a humidity block reproduces it byte for byte. */
  lemma HumidityCalibBytesRoundTrip(calib: CalibData, regData: seq<uint8>)
    requires |regData| == HUM_CALIB_DATA_LEN
    ensures EncodeHumidityCalib(ParseHumidityCalib(calib, regData)) == regData
  {
    var c := ParseHumidityCalib(calib, regData);
    var e := EncodeHumidityCalib(c);
    SignedPairBytes(regData[1], regData[0]);
    NibbleSplit(regData[3], regData[4] % 16);
    NibbleSplit(regData[5], regData[4] / 16);
    assert e[4] == regData[4];
    assert e == [regData[0], regData[1], regData[2], regData[3], regData[4], regData[5], regData[6]];
  }
}

=== FILE: compensation.dfy ===
/** Bosch's 32-bit integer compensation formulas as the driver writes them:
    every signed step wraps to `s32`, every division of a signed value
    truncates toward zero, and mixed `u32`/`int` steps are evaluated in
    unsigned arithmetic and then reinterpreted. */
module Compensation {
  import opened Bits
  import opened Registers
  import opened Calibration
  import opened RawData

  const TEMP_MIN: int := -4000
  const TEMP_MAX: int := 8500
  const PRESS_MIN: int := 30000
  const PRESS_MAX: int := 110000
  const HUM_MAX: uint32 := 102400
  /** The bound on the humidity accumulator before it is scaled down. */
  const HUM_ACC_MAX: int := 419430400

  /** `struct bme280_data`: pressure in Pa, temperature in 1/100 degC,
      humidity in 1/1024 %RH. */
  datatype CompData = CompData(pressure: uint32, temperature: int32, humidity: uint32)

  /** The temperature pass's result and the calibration record it updated. */
  datatype TempOut = TempOut(temperature: int32, calib: CalibData)

  /** `t_fine = var1 + var2` of the temperature pass: it depends only on the
      raw temperature and `dig_T1`..`dig_T3`. */
  function FineTemperature(adcT: uint32, digT1: uint16, digT2: int16, digT3: int16): (r: int32)
  {
    var var1 := ToS32(ToU32(adcT / 8 - digT1 * 2));
    var var1 := Div(ToS32(var1 * digT2), 2048);
    var var2 := ToS32(ToU32(adcT / 16 - digT1));
    var var2 := Div(ToS32(Div(ToS32(var2 * var2), 4096) * digT3), 16384);
    ToS32(var1 + var2)
  }

  /** The temperature in 1/100 degC derived from `t_fine`: `(t_fine * 5 +
      128) / 256`, clamped to [-4000, 8500]; the products only wrap for
      values of `t_fine` far outside the sensor's range. */
  function TemperatureFromFine(tFine: int32): (r: int32)
    ensures TEMP_MIN <= r <= TEMP_MAX
    ensures -0x1000_0000 <= tFine < 0x1000_0000
            ==> r == Clamp(Div(tFine * 5 + 128, 256), TEMP_MIN, TEMP_MAX)
  {
    Clamp(Div(ToS32(ToS32(tFine * 5) + 128), 256), TEMP_MIN, TEMP_MAX)
  }

  /** `compensate_temperature`: stores `t_fine` into the calibration record,
      changes no other coefficient, and returns the temperature that
      `t_fine` stands for. */
  function CompensateTemperature(u: UncompData, calib: CalibData): (r: TempOut)
    ensures TEMP_MIN <= r.temperature <= TEMP_MAX
    ensures r.calib == calib.(tFine := r.calib.tFine)
    ensures r.calib.tFine == FineTemperature(u.temperature, calib.digT1, calib.digT2, calib.digT3)
    ensures r.temperature == TemperatureFromFine(r.calib.tFine)
  {
    var tFine := FineTemperature(u.temperature, calib.digT1, calib.digT2, calib.digT3);
    TempOut(TemperatureFromFine(tFine), calib.(tFine := tFine))
  }

  /** The first part of the pressure pass, common to both of its halves. */
  function PressureBase(c: CalibData): (r: int32)
  {
    ToS32(Div(c.tFine, 2) - 64000)
  }

  /** `var1` after the first half of the pressure pass: the divisor of the
      second half. */
  function PressureDivisor(c: CalibData): (r: int32)
  {
    var var1 := PressureBase(c);
    var var3 := Div(ToS32(c.digP3 * Div(ToS32(Div(var1, 4) * Div(var1, 4)), 8192)), 8);
    var var4 := Div(ToS32(c.digP2 * var1), 2);
    var var1 := Div(ToS32(var3 + var4), 262144);
    Div(ToS32(ToS32(32768 + var1) * c.digP1), 32768)
  }

  /** `var2` after the first half of the pressure pass. */
  function PressureOffset(c: CalibData): (r: int32)
  {
    var var1 := PressureBase(c);
    var var2 := ToS32(Div(ToS32(Div(var1, 4) * Div(var1, 4)), 2048) * c.digP6);
    var var2 := ToS32(var2 + ToS32(ToS32(var1 * c.digP5) * 2));
    ToS32(Div(var2, 4) + ToS32(c.digP4 * 65536))
  }

  /** A non-zero `s32` is still non-zero as a `u32`. */
  lemma NonZeroAsUnsigned(x: int32)
    requires x != 0
    ensures ToU32(x) != 0
  {
  }

  /** `compensate_pressure`: the result is always in [30000, 110000] Pa and
      is exactly 30000 when the divisor is zero. */
  function CompensatePressure(u: UncompData, c: CalibData): (r: uint32)
    ensures PRESS_MIN <= r <= PRESS_MAX
    ensures PressureDivisor(c) == 0 ==> r == PRESS_MIN
  {
    var var1 := PressureDivisor(c);
    var var2 := PressureOffset(c);
    if var1 != 0 then
      var var5 := ToU32(1048576 - u.pressure);
      var pressure := ToU32(ToU32(var5 - ToU32(Div(var2, 4096))) * 3125);
      NonZeroAsUnsigned(var1);
      var divisor := ToU32(var1);
      var pressure :=
        if pressure < 0x8000_0000 then ToU32(pressure * 2) / divisor
        else ToU32((pressure / divisor) * 2);
      var var1 := Div(ToS32(c.digP9 * ToS32(ToU32((pressure / 8) * (pressure / 8)) / 8192)), 4096);
      var var2 := Div(ToS32(ToS32(pressure / 4) * c.digP8), 8192);
      var pressure := ToU32(ToS32(ToS32(pressure) + Div(ToS32(ToS32(var1 + var2) + c.digP7), 16)));
      Clamp(pressure, PRESS_MIN, PRESS_MAX)
    else
      PRESS_MIN
  }

  /** `var5` of the humidity pass before it is clamped. */
  function HumidityAccumulator(u: UncompData, c: CalibData): (r: int32)
  {
    var var1 := ToS32(c.tFine - 76800);
    var var2 := ToS32(ToU32(u.humidity * 16384));
    var var3 := ToS32(c.digH4 * 1048576);
    var var4 := ToS32(c.digH5 * var1);
    var var5 := Div(ToS32(ToS32(ToS32(var2 - var3) - var4) + 16384), 32768);
    var var2 := Div(ToS32(var1 * c.digH6), 1024);
    var var3 := Div(ToS32(var1 * c.digH3), 2048);
    var var4 := ToS32(Div(ToS32(var2 * ToS32(var3 + 32768)), 1024) + 2097152);
    var var2 := Div(ToS32(ToS32(var4 * c.digH2) + 8192), 16384);
    var var3 := ToS32(var5 * var2);
    var var4 := Div(ToS32(Div(var3, 32768) * Div(var3, 32768)), 128);
    ToS32(var3 - Div(ToS32(var4 * c.digH1), 16))
  }

  /** `compensate_humidity`: the accumulator is clamped to [0, 419430400]
      and divided by 4096, so the result is in [0, 102400]; the final check
      against 102400 can never fire. */
  function CompensateHumidity(u: UncompData, c: CalibData): (r: uint32)
    ensures 0 <= r <= HUM_MAX
    ensures r == Clamp(HumidityAccumulator(u, c), 0, HUM_ACC_MAX) / 4096
  {
    var var5 := Clamp(HumidityAccumulator(u, c), 0, HUM_ACC_MAX);
    var humidity := ToU32(Div(var5, 4096));
    if humidity > HUM_MAX then HUM_MAX else humidity
  }

  /** The outcome of `bme280_compensate_data`: its status, the outputs and
      the calibration record (whose `t_fine` the temperature pass updates). */
  datatype CompOut = CompOut(status: Status, data: CompData, calib: CalibData)

  /** `bme280_compensate_data`: clears the three outputs, runs the
      temperature pass when any of the three component bits is set, then the
      pressure and humidity passes for their own bits, both reading the
      `t_fine` the temperature pass has just stored. */
  function CompensateData(sensorComp: uint8, u: UncompData, calib: CalibData): (r: CompOut)
    ensures r.status == Ok
    ensures !Selects(sensorComp, ALL) ==> r.data == CompData(0, 0, 0) && r.calib == calib
    ensures Selects(sensorComp, ALL)
            ==> r.data.temperature == CompensateTemperature(u, calib).temperature
                && r.calib == CompensateTemperature(u, calib).calib
    ensures r.data.pressure == if Selects(sensorComp, PRESS) then CompensatePressure(u, r.calib) else 0
    ensures r.data.humidity == if Selects(sensorComp, HUM) then CompensateHumidity(u, r.calib) else 0
  {
    // PRESS | TEMP | HUM is ALL (lemma SelectorMasks)
    SelectsGroups(sensorComp);
    var zero := CompData(0, 0, 0);
    var (data, calib) :=
      if Selects(sensorComp, ALL) then
        var t := CompensateTemperature(u, calib);
        (zero.(temperature := t.temperature), t.calib)
      else (zero, calib);
    var data := if Selects(sensorComp, PRESS) then data.(pressure := CompensatePressure(u, calib)) else data;
    var data := if Selects(sensorComp, HUM) then data.(humidity := CompensateHumidity(u, calib)) else data;
    CompOut(Ok, data, calib)
  }

  /** Whichever component bits are set, each selected output equals the one
      `BME280_ALL` would produce on the same inputs: the temperature pass
      always runs first. */
  lemma SelectorIndependence(sensorComp: uint8, u: UncompData, calib: CalibData)
    requires Selects(sensorComp, ALL)
    ensures var r := CompensateData(sensorComp, u, calib);
            var all := CompensateData(ALL, u, calib);
            r.data.temperature == all.data.temperature
            && (Selects(sensorComp, PRESS) ==> r.data.pressure == all.data.pressure)
            && (Selects(sensorComp, HUM) ==> r.data.humidity == all.data.humidity)
            && r.calib == all.calib
  {
    SelectorBits(ALL);
  }

  /** The `t_fine` left in the calibration record by an earlier call has no
      influence on the outputs: it is overwritten before it is read. */
  lemma StaleFineTemperatureIrrelevant(sensorComp: uint8, u: UncompData, calib: CalibData, stale: int32)
    requires Selects(sensorComp, ALL)
    ensures CompensateData(sensorComp, u, calib.(tFine := stale))
            == CompensateData(sensorComp, u, calib)
  {
    var c2 := calib.(tFine := stale);
    assert CompensateTemperature(u, c2) == CompensateTemperature(u, calib);
  }

  /** Bosch's reference compensation example: with dig_T1 = 27504,
      dig_T2 = 26435, dig_T3 = -1000 and a raw reading of 519888 the driver
      reports 25.08 degC. Its truncating division gives t_fine = 128423,
      one more than the shift-based reference code. */
  lemma ReferenceTemperatureExample(calib: CalibData)
    requires calib.digT1 == 27504 && calib.digT2 == 26435 && calib.digT3 == -1000
    ensures var r := CompensateTemperature(UncompData(0, 519888, 0), calib);
            r.calib.tFine == 128423 && r.temperature == 2508
  {
    assert ToU32(519888 / 8 - 27504 * 2) == 9978;
    assert ToS32(9978 * 26435) == 263768430;
    assert Div(263768430, 2048) == 128793;
    assert ToU32(519888 / 16 - 27504) == 4989;
    assert ToS32(4989 * 4989) == 24890121;
    assert Div(24890121, 4096) == 6076;
    assert ToS32(6076 * -1000) == -6076000;
    assert Div(-6076000, 16384) == -370;
    assert FineTemperature(519888, 27504, 26435, -1000) == 128423;
    assert Div(128423 * 5 + 128, 256) == 2508;
  }

  /** The pressure half of the same reference example: with dig_P1..dig_P9
      = 36477, -10685, 3024, 2855, 140, -7, 15500, -14600, 6000, the
      t_fine of the temperature half and a raw reading of 415148 the driver
      reports 100654 Pa. The final correction `(-1036) / 16` truncates to
      -64, where the arithmetic shift of the reference code gives -65 and
      so one pascal less. */
  lemma ReferencePressureExample(c: CalibData)
    requires c.tFine == 128423
    requires c.digP1 == 36477 && c.digP2 == -10685 && c.digP3 == 3024 && c.digP4 == 2855
    requires c.digP5 == 140 && c.digP6 == -7 && c.digP7 == 15500 && c.digP8 == -14600 && c.digP9 == 6000
    ensures CompensatePressure(UncompData(415148, 0, 0), c) == 100654
  {
    assert PressureBase(c) == 211;
    assert Div(ToS32(c.digP3 * Div(ToS32(Div(211, 4) * Div(211, 4)), 8192)), 8) == 0;
    assert Div(ToS32(c.digP2 * 211), 2) == -1127267;
    assert Div(ToS32(0 + -1127267), 262144) == -4;
    assert Div(ToS32(ToS32(32768 + -4) * c.digP1), 32768) == 36472;
    assert PressureDivisor(c) == 36472;
    assert ToS32(Div(ToS32(Div(211, 4) * Div(211, 4)), 2048) * c.digP6) == -7;
    assert ToS32(-7 + ToS32(ToS32(211 * c.digP5) * 2)) == 59073;
    assert PressureOffset(c) == 187120048;
    assert Div(187120048, 4096) == 45683;
    var pressure := ToU32(ToU32(ToU32(1048576 - 415148) - ToU32(45683)) * 3125);
    assert pressure == 1836703125;
    assert ToU32(pressure * 2) / 36472 == 100718;
    assert Div(ToS32(c.digP9 * ToS32(ToU32((100718 / 8) * (100718 / 8)) / 8192)), 4096) == 28338;
    assert Div(ToS32(ToS32(100718 / 4) * c.digP8), 8192) == -44874;
    assert Div(ToS32(ToS32(28338 + -44874) + c.digP7), 16) == -64;
  }
}

=== FILE: driver.dfy ===
/** The public driver operations on `struct bme280`: initialisation with
    the calibration read, the settings mirror and its read-back, the
    settings writer, and the measurement read with compensation. */
module Driver {
  import opened Bits
  import opened Registers
  import opened Transport
  import opened Settings
  import opened Calibration
  import opened RawData
  import opened Compensation
  import opened Power

  /** `struct bme280` without the bus handle: the chip id read at
      initialisation, the settings mirror and the calibration record. */
  datatype Device = Device(chipId: uint8, settings: SensorSettings, calib: CalibData)

  /** The status of an operation, the driver state and the bus after it. */
  datatype DeviceStep = DeviceStep(status: Status, dev: Device, bus: Bus)

  /** The 26-byte temperature/pressure calibration block of a device. */
  function TempPressBlock(chip: Chip): (b: seq<uint8>)
    ensures |b| == TEMP_PRESS_CALIB_DATA_LEN
  {
    chip.regs[TEMP_PRESS_CALIB_DATA_ADDR..TEMP_PRESS_CALIB_DATA_ADDR as int + TEMP_PRESS_CALIB_DATA_LEN as int]
  }

  /** The 7-byte humidity calibration block of a device. */
  function HumidityBlock(chip: Chip): (b: seq<uint8>)
    ensures |b| == HUM_CALIB_DATA_LEN
  {
    chip.regs[HUM_CALIB_DATA_ADDR..HUM_CALIB_DATA_ADDR as int + HUM_CALIB_DATA_LEN as int]
  }

  /** The 8-byte measurement burst of a device. */
  function DataBlock(chip: Chip): (b: seq<uint8>)
    ensures |b| == PRESS_TEMP_HUM_DATA_LEN
  {
    chip.regs[DATA_ADDR..DATA_ADDR as int + PRESS_TEMP_HUM_DATA_LEN as int]
  }

  /** The calibration record `get_calib_data` decodes from the two blocks
      of `chip`, starting from `calib` (whose `tFine` it keeps). */
  function ChipCalib(calib: CalibData, chip: Chip): (c: CalibData)
    ensures c.tFine == calib.tFine
  {
    ParseHumidityCalib(ParseTempPressCalib(calib, TempPressBlock(chip)), HumidityBlock(chip))
  }

  /** The record decoded from a chip encodes back to the chip's two
      calibration blocks (with the one unused byte of the first block read
      as zero): decoding loses nothing the compensation formulas use. */
  lemma ChipCalibEncodesBlocks(calib: CalibData, chip: Chip)
    ensures -2048 <= ChipCalib(calib, chip).digH4 <= 2047 && -2048 <= ChipCalib(calib, chip).digH5 <= 2047
    ensures EncodeTempPressCalib(ChipCalib(calib, chip)) == TempPressBlock(chip)[24 := 0]
    ensures EncodeHumidityCalib(ChipCalib(calib, chip)) == HumidityBlock(chip)
  {
    var tp := TempPressBlock(chip);
    var c := ChipCalib(calib, chip);
    TempPressCalibBytesRoundTrip(calib, tp);
    TempPressBytesOf(c, tp);
    HumidityCalibBytesRoundTrip(ParseTempPressCalib(calib, tp), HumidityBlock(chip));
  }

  /** The outcome of reading one calibration block into a record. */
  datatype CalibRead = CalibRead(status: Status, calib: CalibData, bus: Bus)

  /** The first half of `get_calib_data`: read the temperature/pressure
      block and decode it into `calib`; on failure `calib` is kept. */
  method ReadTempPressCalib(calib: CalibData, bus: Bus, env: Env) returns (r: CalibRead)
    ensures r.bus == bus.(trace := bus.trace + [Read(TEMP_PRESS_CALIB_DATA_ADDR, TEMP_PRESS_CALIB_DATA_LEN as nat)])
    ensures r.status == Ok || r.status == CommFail
    ensures r.status == Ok <==> |bus.trace| !in env.fails
    ensures r.calib == if r.status == Ok then ParseTempPressCalib(calib, TempPressBlock(bus.chip)) else calib
  {
    var rd := GetRegs(bus, env, TEMP_PRESS_CALIB_DATA_ADDR, TEMP_PRESS_CALIB_DATA_LEN);
    if rd.status != Ok {
      return CalibRead(rd.status, calib, rd.bus);
    }
    BlockOfRegisters(bus, env, TEMP_PRESS_CALIB_DATA_ADDR, TEMP_PRESS_CALIB_DATA_LEN, rd.data);
    r := CalibRead(Ok, ParseTempPressCalib(calib, rd.data), rd.bus);
  }

  /** The second half of `get_calib_data`: read the humidity block and
      decode it into `calib`; on failure `calib` is kept. */
  method ReadHumidityCalib(calib: CalibData, bus: Bus, env: Env) returns (r: CalibRead)
    ensures r.bus == bus.(trace := bus.trace + [Read(HUM_CALIB_DATA_ADDR, HUM_CALIB_DATA_LEN as nat)])
    ensures r.status == Ok || r.status == CommFail
    ensures r.status == Ok <==> |bus.trace| !in env.fails
    ensures r.calib == if r.status == Ok then ParseHumidityCalib(calib, HumidityBlock(bus.chip)) else calib
  {
    var rd := GetRegs(bus, env, HUM_CALIB_DATA_ADDR, HUM_CALIB_DATA_LEN);
    if rd.status != Ok {
      return CalibRead(rd.status, calib, rd.bus);
    }
    BlockOfRegisters(bus, env, HUM_CALIB_DATA_ADDR, HUM_CALIB_DATA_LEN, rd.data);
    r := CalibRead(Ok, ParseHumidityCalib(calib, rd.data), rd.bus);
  }

  /** `get_calib_data`: the temperature/pressure block, then, if that read
      succeeded, the humidity block. A failure of the second read leaves
      the first block decoded and the humidity coefficients as they were;
      on success the record is `ChipCalib`. */
  method GetCalibData(calib: CalibData, bus: Bus, env: Env) returns (r: CalibRead)
    ensures r.bus.chip == bus.chip
    ensures r.status == Ok || r.status == CommFail
    ensures Extends(r.bus, bus)
    ensures r.status == Ok <==> Succeed(env, |bus.trace|, |bus.trace| + 2)
    ensures |bus.trace| in env.fails
            ==> r == CalibRead(CommFail, calib,
                               bus.(trace := bus.trace + [Read(TEMP_PRESS_CALIB_DATA_ADDR, TEMP_PRESS_CALIB_DATA_LEN as nat)]))
    ensures |bus.trace| !in env.fails
            ==> r.bus.trace == bus.trace + [Read(TEMP_PRESS_CALIB_DATA_ADDR, TEMP_PRESS_CALIB_DATA_LEN as nat),
                                            Read(HUM_CALIB_DATA_ADDR, HUM_CALIB_DATA_LEN as nat)]
    ensures |bus.trace| !in env.fails && r.status != Ok
            ==> r.calib == ParseTempPressCalib(calib, TempPressBlock(bus.chip))
    ensures r.status == Ok ==> r.calib == ChipCalib(calib, bus.chip)
  {
    var n := |bus.trace|;
    SucceedSplit(env, n, n + 1, n + 2);
    SucceedSplit(env, n + 1, n + 2, n + 2);
    var tp := ReadTempPressCalib(calib, bus, env);
    if tp.status != Ok {
      return tp;
    }
    r := ReadHumidityCalib(tp.calib, tp.bus, env);
    ExtendsTrans(bus, tp.bus, r.bus);
  }

  /** `bme280_init`: read the chip id into the device, soft-reset the
      device, then read the calibration. The chip id is stored but never
      compared with the BME280's id 0x60. */
  method Init(dev: Device, bus: Bus, env: Env) returns (r: DeviceStep)
    ensures r.status == Ok || r.status == CommFail || r.status == NvmCopyFailed
    ensures Extends(r.bus, bus) && r.bus.trace[|bus.trace|] == Read(CHIP_ID_ADDR, 1)
    ensures r.dev.settings == dev.settings
    ensures |bus.trace| in env.fails
            ==> r == DeviceStep(CommFail, dev, bus.(trace := bus.trace + [Read(CHIP_ID_ADDR, 1)]))
    ensures |bus.trace| !in env.fails ==> r.dev.chipId == bus.chip.regs[CHIP_ID_ADDR]
    ensures r.status == Ok
            ==> r.bus.chip == Commit(bus.chip, RESET_ADDR, SOFT_RESET_COMMAND)
                && r.dev.calib == ChipCalib(dev.calib, bus.chip)
  {
    var id := GetReg(bus, env, CHIP_ID_ADDR, dev.chipId);
    var d := dev.(chipId := id.value);
    if id.status != Ok {
      return DeviceStep(id.status, d, id.bus);
    }
    var n := |bus.trace|;
    var reset := SoftReset(id.bus, env);
    ExtendsTrans(bus, id.bus, reset.bus);
    ExtendsKeeps(id.bus, reset.bus, n);
    if reset.status != Ok {
      return DeviceStep(reset.status, d, reset.bus);
    }
    assert TempPressBlock(reset.bus.chip) == TempPressBlock(bus.chip);
    assert HumidityBlock(reset.bus.chip) == HumidityBlock(bus.chip);
    var cr := GetCalibData(d.calib, reset.bus, env);
    ExtendsTrans(bus, reset.bus, cr.bus);
    ExtendsKeeps(reset.bus, cr.bus, n);
    r := DeviceStep(cr.status, d.(calib := cr.calib), cr.bus);
  }

  /** `bme280_get_sensor_settings`: read the three control registers into
      the settings mirror; on failure the mirror is kept. */
  method GetSensorSettings(dev: Device, bus: Bus, env: Env) returns (r: DeviceStep)
    ensures r.bus.chip == bus.chip
    ensures 1 <= |r.bus.trace| - |bus.trace| <= 3
            && r.bus.trace == bus.trace + SETTINGS_READS[..|r.bus.trace| - |bus.trace|]
    ensures r.status == Ok || r.status == CommFail
    ensures r.status == Ok <==> Succeed(env, |bus.trace|, |bus.trace| + 3)
    ensures r.status == Ok ==> r.bus.trace == bus.trace + SETTINGS_READS
    ensures r.dev == if r.status == Ok
                     then dev.(settings := ParseDeviceSettings(bus.chip.regs[CONFIG_ADDR],
                                                               bus.chip.regs[CTRL_MEAS_ADDR],
                                                               bus.chip.regs[CTRL_HUM_ADDR]))
                     else dev
  {
    var rd := ReadSettings(bus, env, dev.settings);
    r := DeviceStep(rd.status, dev.(settings := rd.settings), rd.bus);
  }

  /** How the settings read back relate to those before a successful
      settings update that selected `desired` from `s`: the temperature
      oversampling comes from `s` when OSRS_TEMP_SEL is selected, otherwise
      from `s`'s PRESSURE oversampling when OSRS_PRESS_SEL is; filter and
      standby time come from `s` when selected; the humidity oversampling
      comes from `s` when selected and its write went through (a failed
      ctrl_hum write is masked by a successful ctrl_meas update, leaving it
      as it was); the pressure oversampling is never changed; whatever is
      not selected is kept. */
  predicate SettingsApplied(before: SensorSettings, after: SensorSettings, desired: uint8, s: SensorSettings)
  {
    after.osrsP == before.osrsP
    && after.osrsT == (if Selects(desired, OSRS_TEMP_SEL) then s.osrsT % 8
                       else if Selects(desired, OSRS_PRESS_SEL) then s.osrsP % 8
                       else before.osrsT)
    && after.filter == (if Selects(desired, FILTER_SEL) then s.filter % 8 else before.filter)
    && after.standbyTime == (if Selects(desired, STANDBY_TIME_SEL) then s.standbyTime % 8
                             else before.standbyTime)
    && (if Selects(desired, OSRS_HUM_SEL) then after.osrsH == s.osrsH % 8 || after.osrsH == before.osrsH
        else after.osrsH == before.osrsH)
  }

  /** The register contents as settings. */
  function ChipSettings(chip: Chip): (s: SensorSettings)
    ensures s.osrsH == chip.regs[CTRL_HUM_ADDR] % 8 && s.osrsT == chip.regs[CTRL_MEAS_ADDR] / 32
  {
    ParseDeviceSettings(chip.regs[CONFIG_ADDR], chip.regs[CTRL_MEAS_ADDR], chip.regs[CTRL_HUM_ADDR])
  }

  /** The part of `bme280_set_sensor_settings` after the device is asleep:
      the oversampling update when any oversampling is selected, then, if
      the status is still Ok, the filter/standby update when either is
      selected. The oversampling update is only called with at least one
      of its bits selected, so its InvalidOsrsMacro status never reaches
      the caller. */
  method ApplySettings(bus: Bus, env: Env, desired: uint8, s: SensorSettings) returns (r: Step)
    ensures r.status == Ok || r.status == CommFail
    ensures |r.bus.trace| >= |bus.trace| && r.bus.trace[..|bus.trace|] == bus.trace
    ensures r.status == CommFail ==> Extends(r.bus, bus) && |r.bus.trace| - 1 in env.fails
    ensures !Selects(desired, OVERSAMPLING_SETTINGS) && !Selects(desired, FILTER_STANDBY_SETTINGS)
            ==> r == Step(Ok, bus)
    ensures r.status == Ok && bus.chip.regs[CTRL_MEAS_ADDR] % 4 == SLEEP_MODE as int
            ==> SettingsApplied(ChipSettings(bus.chip), ChipSettings(r.bus.chip), desired, s)
    ensures forall a :: (0 <= a < 256 && a != CTRL_HUM_ADDR as int && a != CTRL_MEAS_ADDR as int
                         && a != CONFIG_ADDR as int) ==> r.bus.chip.regs[a] == bus.chip.regs[a]
    ensures r.bus.chip.regs[CTRL_MEAS_ADDR] % 4 == bus.chip.regs[CTRL_MEAS_ADDR] % 4
    ensures r.bus.chip.regs[CONFIG_ADDR] % 4 == bus.chip.regs[CONFIG_ADDR] % 4
    ensures !Selects(desired, OSRS_HUM_SEL) ==> r.bus.chip.regs[CTRL_HUM_ADDR] == bus.chip.regs[CTRL_HUM_ADDR]
    ensures r.status == Ok && Selects(desired, OSRS_HUM_SEL) && Succeed(env, |bus.trace|, |r.bus.trace|)
            ==> ChipSettings(r.bus.chip).osrsH == s.osrsH % 8 && r.bus.chip.humLatched == s.osrsH % 8
  {
    SelectsGroups(desired);
    SelectorBits(desired);
    r := Step(Ok, bus);
    if Selects(desired, OVERSAMPLING_SETTINGS) {
      r := SetOsrs(bus, env, desired, s);
      OsrsApplied(bus.chip, r.bus.chip, env, desired, s, r.status == Ok);
    }
    if r.status == Ok && Selects(desired, FILTER_STANDBY_SETTINGS) {
      var osrs := r;
      r := SetFilterStandby(osrs.bus, env, desired, s);
      SucceedSplit(env, |bus.trace|, |osrs.bus.trace|, |r.bus.trace|);
      assert r.bus.trace[..|bus.trace|] == bus.trace by {
        assert r.bus.trace[..|bus.trace|] == r.bus.trace[..|osrs.bus.trace|][..|bus.trace|];
      }
      if r.status == Ok && bus.chip.regs[CTRL_MEAS_ADDR] % 4 == SLEEP_MODE as int {
        FilterStandbyApplied(bus.chip, osrs.bus.chip, r.bus.chip, desired, s);
      }
    }
  }

  /** The settings after the oversampling update, as `SettingsApplied`
      says for the ctrl_meas part. */
  lemma OsrsApplied(before: Chip, after: Chip, env: Env, desired: uint8, s: SensorSettings, ok: bool)
    requires after.regs[CONFIG_ADDR] == before.regs[CONFIG_ADDR]
    requires after.regs[CTRL_MEAS_ADDR] % 32 == before.regs[CTRL_MEAS_ADDR] % 32
    requires Selects(desired, OSRS_PRESS_TEMP_SEL) && ok
             ==> after.regs[CTRL_MEAS_ADDR] == PressTempByte(before.regs[CTRL_MEAS_ADDR], desired, s)
    requires !Selects(desired, OSRS_PRESS_TEMP_SEL) ==> after.regs[CTRL_MEAS_ADDR] == before.regs[CTRL_MEAS_ADDR]
    requires after.regs[CTRL_HUM_ADDR] == before.regs[CTRL_HUM_ADDR]
             || (Selects(desired, OSRS_HUM_SEL) && after.regs[CTRL_HUM_ADDR] == HumByte(env, s))
    ensures ok && !Selects(desired, FILTER_STANDBY_SETTINGS)
            ==> SettingsApplied(ChipSettings(before), ChipSettings(after), desired, s)
    ensures after.regs[CTRL_MEAS_ADDR] % 4 == before.regs[CTRL_MEAS_ADDR] % 4
    ensures ChipSettings(after).osrsP == ChipSettings(before).osrsP
    ensures ChipSettings(after).osrsH == ChipSettings(before).osrsH
            || (Selects(desired, OSRS_HUM_SEL) && ChipSettings(after).osrsH == s.osrsH % 8)
  {
    LowFields(after.regs[CTRL_MEAS_ADDR]);
    LowFields(before.regs[CTRL_MEAS_ADDR]);
    SelectsGroups(desired);
    SelectorBits(desired);
    if ok && Selects(desired, OSRS_PRESS_TEMP_SEL) {
      assert PressTempUpdated(before.regs[CTRL_MEAS_ADDR], after.regs[CTRL_MEAS_ADDR], desired, s);
    }
  }

  /** The settings after both updates, as `SettingsApplied` says. */
  lemma FilterStandbyApplied(before: Chip, mid: Chip, after: Chip, desired: uint8, s: SensorSettings)
    requires mid.regs[CTRL_MEAS_ADDR] % 4 == SLEEP_MODE as int
    requires after == mid.(regs := mid.regs[CONFIG_ADDR := ConfigByte(mid.regs[CONFIG_ADDR], desired, s)])
    requires mid.regs[CONFIG_ADDR] == before.regs[CONFIG_ADDR]
    requires ChipSettings(mid).osrsP == ChipSettings(before).osrsP
    requires ChipSettings(mid).osrsH == ChipSettings(before).osrsH
             || (Selects(desired, OSRS_HUM_SEL) && ChipSettings(mid).osrsH == s.osrsH % 8)
    requires ChipSettings(mid).osrsT
             == (if Selects(desired, OSRS_TEMP_SEL) then s.osrsT % 8
                 else if Selects(desired, OSRS_PRESS_SEL) then s.osrsP % 8
                 else ChipSettings(before).osrsT)
    ensures SettingsApplied(ChipSettings(before), ChipSettings(after), desired, s)
  {
    assert ConfigUpdated(mid.regs[CONFIG_ADDR], after.regs[CONFIG_ADDR], desired, s);
  }

  /** `bme280_set_sensor_settings`: make sure the device is asleep (reading
      the mode, putting it to sleep when it is not), then apply the
      selected settings from the settings mirror. The status is never
      InvalidOsrsMacro, and a selector with none of the five bits set
      succeeds after the mode read alone when the device is asleep. */
  method SetSensorSettings(dev: Device, bus: Bus, env: Env, desired: uint8) returns (r: Step)
    ensures r.status == Ok || r.status == CommFail || r.status == NvmCopyFailed
    ensures Extends(r.bus, bus) && r.bus.trace[|bus.trace|] == Read(CTRL_MEAS_ADDR, 1)
    ensures r.status == CommFail ==> |r.bus.trace| - 1 in env.fails
    ensures r.status == NvmCopyFailed ==> r.bus.trace[|r.bus.trace| - 1] == Read(STATUS_ADDR, 1)
    ensures r.status == Ok ==> r.bus.chip.regs[CTRL_MEAS_ADDR] % 4 == SLEEP_MODE as int
    ensures r.status == Ok
            ==> (var before := ChipSettings(bus.chip);
                 var after := ChipSettings(r.bus.chip);
                 if bus.chip.regs[CTRL_MEAS_ADDR] % 4 == SLEEP_MODE as int
                 then SettingsApplied(before, after, desired, dev.settings)
                 else SettingsApplied(before.(osrsP := 0), after, desired, dev.settings)
                      || SettingsApplied(before.(osrsP := 0, osrsH := 0), after, desired, dev.settings))
    ensures r.status == Ok
            ==> r.bus.chip.regs[CONFIG_ADDR] % 4
                == if bus.chip.regs[CTRL_MEAS_ADDR] % 4 == SLEEP_MODE as int then bus.chip.regs[CONFIG_ADDR] % 4 else 0
    ensures r.status == Ok
            ==> forall a :: (0 <= a < 256 && a != CTRL_HUM_ADDR as int && a != CTRL_MEAS_ADDR as int
                             && a != CONFIG_ADDR as int) ==> r.bus.chip.regs[a] == bus.chip.regs[a]
    ensures r.status == Ok && bus.chip.regs[CTRL_MEAS_ADDR] % 4 == SLEEP_MODE as int && !Selects(desired, OSRS_HUM_SEL)
            ==> r.bus.chip.regs[CTRL_HUM_ADDR] == bus.chip.regs[CTRL_HUM_ADDR]
    ensures |bus.trace| !in env.fails && bus.chip.regs[CTRL_MEAS_ADDR] % 4 == SLEEP_MODE as int
            && !Selects(desired, OVERSAMPLING_SETTINGS) && !Selects(desired, FILTER_STANDBY_SETTINGS)
            ==> r == Step(Ok, bus.(trace := bus.trace + [Read(CTRL_MEAS_ADDR, 1)]))
    ensures r.status == Ok && Selects(desired, OSRS_HUM_SEL) && Succeed(env, |bus.trace|, |r.bus.trace|)
            ==> ChipSettings(r.bus.chip).osrsH == dev.settings.osrsH % 8
                && r.bus.chip.humLatched == dev.settings.osrsH % 8
  {
    var n := |bus.trace|;
    var asleep := EnsureAsleep(bus, env);
    if asleep.status != Ok {
      return asleep;
    }
    r := ApplySettings(asleep.bus, env, desired, dev.settings);
    SucceedSplit(env, n, |asleep.bus.trace|, |r.bus.trace|);
    assert r.bus.trace[..n + 1] == asleep.bus.trace[..n + 1] by {
      assert r.bus.trace[..n + 1] == r.bus.trace[..|asleep.bus.trace|][..n + 1];
    }
    assert r.bus.trace[..n] == bus.trace by {
      assert r.bus.trace[..n] == r.bus.trace[..|asleep.bus.trace|][..n];
    }
    if r.status == Ok && bus.chip.regs[CTRL_MEAS_ADDR] % 4 != SLEEP_MODE as int {
      SleptSettings(bus.chip, asleep.bus.chip, env);
    }
  }

  /** The settings of a device `put_device_to_sleep` acted on: those it had
      with the pressure oversampling cleared, and the humidity oversampling
      either kept or cleared; config bits 0-1 are cleared by the reset. */
  lemma SleptSettings(before: Chip, after: Chip, env: Env)
    requires SleptFrom(before, after, env)
    ensures var b := ChipSettings(before);
            var a := ChipSettings(after);
            a == b.(osrsP := 0) || a == b.(osrsP := 0, osrsH := 0)
    ensures after.regs[CONFIG_ADDR] % 4 == 0
  {
    ConfigSplit(after.regs[CONFIG_ADDR]);
  }

  /** The outcome of `bme280_get_sensor_data`: the status, the output
      record, the driver state (whose `t_fine` compensation updates) and
      the bus. */
  datatype DataRead = DataRead(status: Status, data: CompData, dev: Device, bus: Bus)

  /** `bme280_get_sensor_data`: one burst read of the eight measurement
      bytes; on success they are decoded and compensated into the output
      record, on failure the output record and the driver state are left
      as they were. */
  method GetSensorData(dev: Device, bus: Bus, env: Env, sensorComp: uint8, prev: CompData) returns (r: DataRead)
    ensures r.bus == bus.(trace := bus.trace + [Read(DATA_ADDR, PRESS_TEMP_HUM_DATA_LEN as nat)])
    ensures r.status == Ok || r.status == CommFail
    ensures r.status == Ok <==> |bus.trace| !in env.fails
    ensures r.status != Ok ==> r.data == prev && r.dev == dev
    ensures r.status == Ok
            ==> (var out := CompensateData(sensorComp, ParseSensorData(DataBlock(bus.chip)), dev.calib);
                 r.data == out.data && r.dev == dev.(calib := out.calib))
  {
    var rd := GetRegs(bus, env, DATA_ADDR, PRESS_TEMP_HUM_DATA_LEN);
    if rd.status != Ok {
      return DataRead(rd.status, prev, dev, rd.bus);
    }
    BlockOfRegisters(bus, env, DATA_ADDR, PRESS_TEMP_HUM_DATA_LEN, rd.data);
    var out := CompensateData(sensorComp, ParseSensorData(rd.data), dev.calib);
    r := DataRead(out.status, out.data, dev.(calib := out.calib), rd.bus);
  }
}

=== FILE: power.dfy ===
/** Power control: reading and writing the mode field of ctrl_meas, the
    soft reset with its NVM-copy poll, and the sleep sequence that snapshots
    the settings, resets the device and replays them. */
module Power {
  import opened Bits
  import opened Registers
  import opened Transport
  import opened Settings

  /** The ctrl_meas byte `write_power_mode` writes: the two-bit mode field
      holds the low two bits of the requested mode, the oversampling fields
      are as read. */
  function PowerModeByte(reg: uint8, mode: uint8): (b: uint8)
    ensures b / 4 == reg / 4 && b % 4 == mode % 4
  {
    var f := UnpackCtrlMeas(reg).(mode := mode % 4);
    CtrlMeasFieldUpdate(reg, mode % 4, 0);
    LowFields(reg);
    LowFields(PackCtrlMeas(f));
    PackCtrlMeas(f)
  }

  /** `write_power_mode`: a read-modify-write of ctrl_meas that replaces
      only the mode field. */
  method WritePowerMode(bus: Bus, env: Env, mode: uint8) returns (r: Step)
    ensures r.status == Ok || r.status == CommFail
    ensures r.status == Ok <==> Succeed(env, |bus.trace|, |bus.trace| + 2)
    ensures r.status != Ok ==> |r.bus.trace| - 1 in env.fails
    ensures |bus.trace| in env.fails
            ==> r == Step(CommFail, bus.(trace := bus.trace + [Read(CTRL_MEAS_ADDR, 1)]))
    ensures |bus.trace| !in env.fails
            ==> (var w := PowerModeByte(bus.chip.regs[CTRL_MEAS_ADDR], mode);
                 r.bus.trace == bus.trace + [Read(CTRL_MEAS_ADDR, 1), Write(CTRL_MEAS_ADDR, w)]
                 && r.bus.chip == if r.status == Ok then Commit(bus.chip, CTRL_MEAS_ADDR, w) else bus.chip)
  {
    r := ModifyReg(bus, env, CTRL_MEAS_ADDR, reg => PowerModeByte(reg, mode));
  }

  /** The outcome of `bme280_get_sensor_mode`: its status and the mode it
      stores. */
  datatype ModeRead = ModeRead(status: Status, mode: uint8, bus: Bus)

  /** `bme280_get_sensor_mode`: one read of ctrl_meas. The mode is taken
      from the union the read fills even when the read fails, so it is then
      the low bits of whatever the stack held. */
  method GetSensorMode(bus: Bus, env: Env) returns (r: ModeRead)
    ensures r.bus == bus.(trace := bus.trace + [Read(CTRL_MEAS_ADDR, 1)])
    ensures r.status == Ok <==> |bus.trace| !in env.fails
    ensures r.status != Ok ==> r.status == CommFail
    ensures r.mode < 4
    ensures r.mode == (if r.status == Ok then bus.chip.regs[CTRL_MEAS_ADDR] else env.junk) % 4
  {
    var rd := GetReg(bus, env, CTRL_MEAS_ADDR, env.junk);
    r := ModeRead(rd.status, UnpackCtrlMeas(rd.value).mode, rd.bus);
  }

  /** A status read as transaction `i` that goes through and reports the
      NVM copy still running (`im_update` set). */
  predicate Busy(env: Env, i: nat)
  {
    i !in env.fails && env.status(i) % 2 == 1
  }

  /** The retry budget of the NVM-copy poll: one read plus this many more. */
  const RESET_RETRIES: uint8 := 5

  /** The largest number of status reads a soft reset issues. */
  const MAX_POLLS: nat := RESET_RETRIES as nat + 1

  /** The NVM-copy poll of `bme280_soft_reset`: read the status register
      until a read fails, the retries run out or `im_update` reads clear.
      `value` is the byte the status variable holds at the end, which a
      failed read leaves as it was (0 before the first read): it shows the
      copy running exactly when the last read reported it running, or
      failed after an earlier read did. */
  method PollNvmCopy(bus: Bus, env: Env) returns (rd: ByteRead)
    ensures var n := |bus.trace|;
            var last := |rd.bus.trace| - 1;
            n <= last < n + MAX_POLLS
            && rd.bus.chip == bus.chip && rd.bus.trace[..n] == bus.trace
            && (forall i :: n <= i < |rd.bus.trace| ==> rd.bus.trace[i] == Read(STATUS_ADDR, 1))
            && (forall i :: n <= i < last ==> Busy(env, i))
            && (last < n + MAX_POLLS - 1 ==> !Busy(env, last))
            && (rd.status == Ok || rd.status == CommFail)
            && (rd.status == Ok <==> last !in env.fails)
            && (Selects(rd.value, STATUS_IM_UPDATE) <==> Busy(env, last) || (n < last && last in env.fails))
  {
    var n := |bus.trace|;
    var statusReg: uint8 := 0;
    var retries: uint8 := RESET_RETRIES;
    rd := GetReg(bus, env, STATUS_ADDR, statusReg);
    statusReg := rd.value;
    SelectorBits(statusReg);
    while rd.status == Ok && retries != 0 && Selects(statusReg, STATUS_IM_UPDATE)
      invariant |rd.bus.trace| == n + MAX_POLLS - retries
      invariant rd.bus.chip == bus.chip
      invariant rd.bus.trace[..n] == bus.trace
      invariant forall i :: n <= i < |rd.bus.trace| ==> rd.bus.trace[i] == Read(STATUS_ADDR, 1)
      invariant forall i :: n <= i < |rd.bus.trace| - 1 ==> Busy(env, i)
      invariant rd.status == Ok || rd.status == CommFail
      invariant rd.status == Ok <==> |rd.bus.trace| - 1 !in env.fails
      invariant rd.value == statusReg
      invariant rd.status == Ok ==> statusReg == env.status(|rd.bus.trace| - 1)
      invariant rd.status != Ok && |rd.bus.trace| == n + 1 ==> statusReg == 0
      invariant rd.status != Ok && |rd.bus.trace| > n + 1 ==> statusReg % 2 == 1
      invariant Selects(statusReg, STATUS_IM_UPDATE) <==> statusReg % 2 == 1
      decreases retries
    {
      retries := retries - 1;
      rd := GetReg(rd.bus, env, STATUS_ADDR, statusReg);
      statusReg := rd.value;
      SelectorBits(statusReg);
    }
  }

  /** `bme280_soft_reset`: write 0xB6 to the reset register, then poll the
      NVM copy. The verdict:
      - the write or the first status read failing gives CommFail;
      - a busy status byte gives NvmCopyFailed, also when a later read
        failed;
      - a clear byte from the last read gives Ok. */
  method SoftReset(bus: Bus, env: Env) returns (r: Step)
    ensures r.status == Ok || r.status == CommFail || r.status == NvmCopyFailed
    ensures Extends(r.bus, bus)
            && r.bus.trace[..|bus.trace| + 1] == bus.trace + [Write(RESET_ADDR, SOFT_RESET_COMMAND)]
    ensures |bus.trace| in env.fails
            ==> r == Step(CommFail, bus.(trace := bus.trace + [Write(RESET_ADDR, SOFT_RESET_COMMAND)]))
    ensures |bus.trace| !in env.fails
            ==> (var n := |bus.trace|;
                 var last := |r.bus.trace| - 1;
                 n + 1 <= last <= n + MAX_POLLS
                 && r.bus.chip == Commit(bus.chip, RESET_ADDR, SOFT_RESET_COMMAND)
                 && (forall i :: n < i < |r.bus.trace| ==> r.bus.trace[i] == Read(STATUS_ADDR, 1))
                 && (forall i :: n < i < last ==> Busy(env, i))
                 && (last < n + MAX_POLLS ==> !Busy(env, last)))
    ensures r.status == CommFail <==> |bus.trace| in env.fails || |bus.trace| + 1 in env.fails
    ensures r.status == Ok
            <==> |bus.trace| !in env.fails && |r.bus.trace| - 1 !in env.fails
                 && env.status(|r.bus.trace| - 1) % 2 == 0
    ensures r.status == CommFail ==> |r.bus.trace| - 1 in env.fails
    ensures r.status == NvmCopyFailed ==> r.bus.trace[|r.bus.trace| - 1] == Read(STATUS_ADDR, 1)
  {
    var n := |bus.trace|;
    r := SetReg(bus, env, RESET_ADDR, SOFT_RESET_COMMAND);
    if r.status != Ok {
      return;
    }
    var rd := PollNvmCopy(r.bus, env);
    var last := |rd.bus.trace| - 1;
    if last > n + 1 {
      assert Busy(env, n + 1);
    }
    assert rd.bus.trace[..n + 1] == r.bus.trace;
    assert rd.bus.trace[..n] == bus.trace by {
      assert rd.bus.trace[..n] == rd.bus.trace[..n + 1][..n];
    }
    if Selects(rd.value, STATUS_IM_UPDATE) {
      r := Step(NvmCopyFailed, rd.bus);
    } else {
      r := Step(rd.status, rd.bus);
    }
  }

  /** What `put_device_to_sleep` leaves behind when it succeeds, given the
      device `before` it: the device asleep with the temperature
      oversampling, filter and standby time it had, but the pressure
      oversampling cleared by the reset and never written back, and the
      other registers as `ReloadedFrom` says. */
  predicate SleptFrom(before: Chip, after: Chip, env: Env)
  {
    UnpackCtrlMeas(after.regs[CTRL_MEAS_ADDR])
      == CtrlMeas(SLEEP_MODE as int, 0, UnpackCtrlMeas(before.regs[CTRL_MEAS_ADDR]).osrsT)
    && ReloadedFrom(before, after, env)
  }

  /** The registers other than ctrl_meas after a successful
      `put_device_to_sleep` on the device `before` it: config holds the
      filter and standby time it had with bits 0-1 cleared by the reset;
      ctrl_hum is either still clear from the reset (its write failed,
      masked by the ctrl_meas update) or rewritten with the humidity
      oversampling it had, and in effect; every other register untouched. */
  predicate ReloadedFrom(before: Chip, after: Chip, env: Env)
  {
    var s := ParseDeviceSettings(before.regs[CONFIG_ADDR], before.regs[CTRL_MEAS_ADDR],
                                 before.regs[CTRL_HUM_ADDR]);
    UnpackConfig(after.regs[CONFIG_ADDR]) == Config(0, 0, s.filter, s.standbyTime)
    && (after.regs[CTRL_HUM_ADDR] == 0 || after.regs[CTRL_HUM_ADDR] == HumByte(env, s))
    && after.humLatched == after.regs[CTRL_HUM_ADDR] % 8
    && forall a :: (0 <= a < 256 && a != CTRL_HUM_ADDR as int && a != CTRL_MEAS_ADDR as int
                    && a != CONFIG_ADDR as int) ==> after.regs[a] == before.regs[a]
  }

  /** The second half of `put_device_to_sleep`: soft-reset the device,
      then, if that succeeded, replay the settings `s` read before it. */
  method ResetAndReload(bus: Bus, env: Env, s: SensorSettings) returns (r: Step)
    ensures r.status == Ok || r.status == CommFail || r.status == NvmCopyFailed
    ensures Extends(r.bus, bus)
            && r.bus.trace[..|bus.trace| + 1] == bus.trace + [Write(RESET_ADDR, SOFT_RESET_COMMAND)]
    ensures r.status == CommFail ==> |r.bus.trace| - 1 in env.fails
    ensures r.status == NvmCopyFailed ==> r.bus.trace[|r.bus.trace| - 1] == Read(STATUS_ADDR, 1)
    ensures r.status == Ok
            ==> |r.bus.trace| > |bus.trace| + 1
                && (forall a :: (0 <= a < 256 && a != CTRL_HUM_ADDR as int && a != CTRL_MEAS_ADDR as int
                                 && a != CONFIG_ADDR as int) ==> r.bus.chip.regs[a] == bus.chip.regs[a])
                && r.bus.chip.regs[CTRL_MEAS_ADDR] % 32 == 0
                && r.bus.chip.regs[CTRL_MEAS_ADDR] / 32 == s.osrsT % 8
                && r.bus.chip.regs[CONFIG_ADDR] == ConfigByte(0, ALL_SETTINGS_SEL, s)
                && (r.bus.chip.regs[CTRL_HUM_ADDR] == 0 || r.bus.chip.regs[CTRL_HUM_ADDR] == HumByte(env, s))
                && r.bus.chip.humLatched == r.bus.chip.regs[CTRL_HUM_ADDR] % 8
    ensures r.status == Ok && Succeed(env, |bus.trace|, |r.bus.trace|)
            ==> r.bus.chip.regs[CTRL_HUM_ADDR] % 8 == s.osrsH % 8
    ensures |bus.trace| in env.fails ==> r.bus.chip == bus.chip
    ensures |bus.trace| !in env.fails ==> r.bus.chip.regs[CTRL_MEAS_ADDR] % 32 == 0
  {
    var reset := SoftReset(bus, env);
    if reset.status != Ok {
      return reset;
    }
    r := ReloadDeviceSettings(reset.bus, env, s);
    ExtendsTrans(bus, reset.bus, r.bus);
    SucceedSplit(env, |bus.trace|, |reset.bus.trace|, |r.bus.trace|);
    assert r.bus.trace[..|bus.trace| + 1] == reset.bus.trace[..|bus.trace| + 1] by {
      assert r.bus.trace[..|bus.trace| + 1] == r.bus.trace[..|reset.bus.trace|][..|bus.trace| + 1];
    }
  }

  /** `put_device_to_sleep`: read the three control registers, soft-reset
      the device (which puts it to sleep), then write the settings read back
      with `reload_device_settings`. */
  method PutDeviceToSleep(bus: Bus, env: Env) returns (r: Step)
    ensures r.status == Ok || r.status == CommFail || r.status == NvmCopyFailed
    ensures Extends(r.bus, bus)
    ensures r.status == CommFail ==> |r.bus.trace| - 1 in env.fails
    ensures r.status == NvmCopyFailed ==> r.bus.trace[|r.bus.trace| - 1] == Read(STATUS_ADDR, 1)
    ensures r.status == Ok
            ==> |r.bus.trace| > |bus.trace| + 4
                && r.bus.trace[..|bus.trace| + 4]
                   == bus.trace + SETTINGS_READS + [Write(RESET_ADDR, SOFT_RESET_COMMAND)]
                && SleptFrom(bus.chip, r.bus.chip, env)
    ensures r.status == Ok && Succeed(env, |bus.trace|, |r.bus.trace|)
            ==> r.bus.chip.regs[CTRL_HUM_ADDR] % 8 == bus.chip.regs[CTRL_HUM_ADDR] % 8
    ensures r.bus.chip == bus.chip || r.bus.chip.regs[CTRL_MEAS_ADDR] % 32 == 0
  {
    var n := |bus.trace|;
    var snap := ReadSettings(bus, env, SensorSettings(0, 0, 0, 0, 0));
    if snap.status != Ok {
      return Step(snap.status, snap.bus);
    }
    var s := snap.settings;
    r := ResetAndReload(snap.bus, env, s);
    ExtendsTrans(bus, snap.bus, r.bus);
    SucceedSplit(env, n, |snap.bus.trace|, |r.bus.trace|);
    if r.status == Ok {
      assert SETTINGS_READS[..3] == SETTINGS_READS;
      ReloadedAfterReset(bus.chip, r.bus.chip, env, s);
    }
  }

  /** The settings replayed onto a freshly reset device give what
      `SleptFrom` describes. */
  lemma ReloadedAfterReset(before: Chip, after: Chip, env: Env, s: SensorSettings)
    requires s == ParseDeviceSettings(before.regs[CONFIG_ADDR], before.regs[CTRL_MEAS_ADDR],
                                      before.regs[CTRL_HUM_ADDR])
    requires forall a :: (0 <= a < 256 && a != CTRL_HUM_ADDR as int && a != CTRL_MEAS_ADDR as int
                          && a != CONFIG_ADDR as int) ==> after.regs[a] == before.regs[a]
    requires after.regs[CTRL_MEAS_ADDR] % 32 == 0 && after.regs[CTRL_MEAS_ADDR] / 32 == s.osrsT % 8
    requires after.humLatched == after.regs[CTRL_HUM_ADDR] % 8
    requires after.regs[CTRL_HUM_ADDR] == 0 || after.regs[CTRL_HUM_ADDR] == HumByte(env, s)
    requires after.regs[CONFIG_ADDR] == ConfigByte(0, ALL_SETTINGS_SEL, s)
    ensures SleptFrom(before, after, env)
  {
    SleepingCtrlMeas(after.regs[CTRL_MEAS_ADDR], s.osrsT);
    AllSettingsSelected();
    SleepingConfig(after.regs[CONFIG_ADDR], s);
  }

  /** A ctrl_meas byte whose low five bits are clear is in sleep mode with
      the pressure oversampling off. */
  lemma SleepingCtrlMeas(meas: uint8, t: uint8)
    requires meas % 32 == 0 && t < 8 && meas / 32 == t % 8
    ensures UnpackCtrlMeas(meas) == CtrlMeas(SLEEP_MODE as int, 0, t)
  {
    LowFields(meas);
  }

  /** A config byte rewritten from 0 with every setting selected holds
      only the filter and standby time. */
  lemma SleepingConfig(conf: uint8, s: SensorSettings)
    requires s.filter < 8 && s.standbyTime < 8
    requires ConfigUpdated(0, conf, ALL_SETTINGS_SEL, s)
    ensures UnpackConfig(conf) == Config(0, 0, s.filter, s.standbyTime)
  {
    AllSettingsSelected();
    assert conf % 4 == 0 && (conf / 4) % 8 == s.filter % 8 && conf / 32 == s.standbyTime % 8;
    ConfigSplit(conf);
  }

  /** The shared opening of `bme280_set_sensor_settings` and
      `bme280_set_sensor_mode`: read the mode and, when the read succeeds
      and the device is not asleep, put it to sleep. */
  method EnsureAsleep(bus: Bus, env: Env) returns (r: Step)
    ensures r.status == Ok || r.status == CommFail || r.status == NvmCopyFailed
    ensures Extends(r.bus, bus) && r.bus.trace[|bus.trace|] == Read(CTRL_MEAS_ADDR, 1)
    ensures r.status == CommFail ==> |r.bus.trace| - 1 in env.fails
    ensures r.status == NvmCopyFailed ==> r.bus.trace[|r.bus.trace| - 1] == Read(STATUS_ADDR, 1)
    ensures r.status == Ok ==> r.bus.chip.regs[CTRL_MEAS_ADDR] % 4 == SLEEP_MODE as int
    ensures |bus.trace| in env.fails
            ==> r == Step(CommFail, bus.(trace := bus.trace + [Read(CTRL_MEAS_ADDR, 1)]))
    ensures |bus.trace| !in env.fails && bus.chip.regs[CTRL_MEAS_ADDR] % 4 == SLEEP_MODE as int
            ==> r == Step(Ok, bus.(trace := bus.trace + [Read(CTRL_MEAS_ADDR, 1)]))
    ensures |bus.trace| !in env.fails && bus.chip.regs[CTRL_MEAS_ADDR] % 4 != SLEEP_MODE as int
            && r.status == Ok
            ==> SleptFrom(bus.chip, r.bus.chip, env)
                && |r.bus.trace| > |bus.trace| + 5
                && r.bus.trace[..|bus.trace| + 5]
                   == bus.trace + [Read(CTRL_MEAS_ADDR, 1)] + SETTINGS_READS
                      + [Write(RESET_ADDR, SOFT_RESET_COMMAND)]
    ensures r.bus.chip == bus.chip || r.bus.chip.regs[CTRL_MEAS_ADDR] % 32 == 0
  {
    var cur := GetSensorMode(bus, env);
    r := Step(cur.status, cur.bus);
    if cur.status == Ok && cur.mode != SLEEP_MODE as int {
      r := PutDeviceToSleep(cur.bus, env);
      assert r.bus.trace[..|bus.trace| + 1] == cur.bus.trace by {
        assert r.bus.trace[..|cur.bus.trace|] == cur.bus.trace;
      }
    }
  }

  /** `bme280_set_sensor_mode`: make sure the device is asleep, then, if
      that succeeded, write the requested mode. A failure while going to
      sleep skips the mode write: the operation ends with the transaction
      that failed (CommFail) or with the last status poll of the reset
      (NvmCopyFailed), and the device is either as it was or reset into
      sleep mode. An awake device is put to sleep first (mode read, the
      three settings reads, the reset), so on success its registers are
      those `ReloadedFrom` describes, and ctrl_meas holds the requested
      mode with the pressure oversampling cleared. */
  method SetSensorMode(bus: Bus, env: Env, mode: uint8) returns (r: Step)
    ensures r.status == Ok || r.status == CommFail || r.status == NvmCopyFailed
    ensures Extends(r.bus, bus)
    ensures r.status == CommFail ==> |r.bus.trace| - 1 in env.fails
    ensures r.status == NvmCopyFailed ==> r.bus.trace[|r.bus.trace| - 1] == Read(STATUS_ADDR, 1)
    ensures r.status == Ok
            ==> |r.bus.trace| >= |bus.trace| + 3
                && r.bus.trace[|r.bus.trace| - 2..]
                   == [Read(CTRL_MEAS_ADDR, 1), Write(CTRL_MEAS_ADDR, r.bus.chip.regs[CTRL_MEAS_ADDR])]
                && r.bus.chip.regs[CTRL_MEAS_ADDR] % 4 == mode % 4
    ensures r.status == Ok && bus.chip.regs[CTRL_MEAS_ADDR] % 4 == SLEEP_MODE as int
            ==> r.bus.chip == Commit(bus.chip, CTRL_MEAS_ADDR, PowerModeByte(bus.chip.regs[CTRL_MEAS_ADDR], mode))
    ensures r.status == Ok && bus.chip.regs[CTRL_MEAS_ADDR] % 4 != SLEEP_MODE as int
            ==> r.bus.chip.regs[CTRL_MEAS_ADDR] / 4 == 8 * (bus.chip.regs[CTRL_MEAS_ADDR] / 32)
                && UnpackCtrlMeas(r.bus.chip.regs[CTRL_MEAS_ADDR])
                   == CtrlMeas(mode % 4, 0, UnpackCtrlMeas(bus.chip.regs[CTRL_MEAS_ADDR]).osrsT)
                && ReloadedFrom(bus.chip, r.bus.chip, env)
                && |r.bus.trace| > |bus.trace| + 5
                && r.bus.trace[..|bus.trace| + 5]
                   == bus.trace + [Read(CTRL_MEAS_ADDR, 1)] + SETTINGS_READS
                      + [Write(RESET_ADDR, SOFT_RESET_COMMAND)]
    ensures r.status != Ok ==> r.bus.chip == bus.chip || r.bus.chip.regs[CTRL_MEAS_ADDR] % 32 == 0
    ensures r.status != Ok && bus.chip.regs[CTRL_MEAS_ADDR] % 4 == SLEEP_MODE as int
            ==> r.bus.chip == bus.chip
  {
    var n := |bus.trace|;
    var asleep := EnsureAsleep(bus, env);
    if asleep.status != Ok {
      return asleep;
    }
    r := WritePowerMode(asleep.bus, env, mode);
    if r.status == Ok {
      assert r.bus.trace[|r.bus.trace| - 2..]
             == [Read(CTRL_MEAS_ADDR, 1), Write(CTRL_MEAS_ADDR, r.bus.chip.regs[CTRL_MEAS_ADDR])];
      if bus.chip.regs[CTRL_MEAS_ADDR] % 4 != SLEEP_MODE as int {
        var meas := asleep.bus.chip.regs[CTRL_MEAS_ADDR];
        assert UnpackCtrlMeas(meas).osrsP == 0 && UnpackCtrlMeas(meas).mode == 0;
        LowFields(meas);
        assert meas / 4 == 8 * (bus.chip.regs[CTRL_MEAS_ADDR] / 32);
        ModeWrittenAfterSleep(bus.chip, asleep.bus.chip, r.bus.chip, env, mode);
        assert r.bus.trace[..n + 5] == asleep.bus.trace[..n + 5] by {
          assert r.bus.trace[..n + 5] == r.bus.trace[..|asleep.bus.trace|][..n + 5];
        }
      }
    }
    assert r.bus.trace[..n] == bus.trace by {
      assert r.bus.trace[..|asleep.bus.trace|] == asleep.bus.trace;
    }
  }

  /** The mode write after `put_device_to_sleep` changes only the mode
      field of ctrl_meas, so the other registers stay as the sleep sequence
      left them. */
  lemma ModeWrittenAfterSleep(before: Chip, mid: Chip, after: Chip, env: Env, mode: uint8)
    requires SleptFrom(before, mid, env)
    requires after == Commit(mid, CTRL_MEAS_ADDR, PowerModeByte(mid.regs[CTRL_MEAS_ADDR], mode))
    ensures UnpackCtrlMeas(after.regs[CTRL_MEAS_ADDR])
            == CtrlMeas(mode % 4, 0, UnpackCtrlMeas(before.regs[CTRL_MEAS_ADDR]).osrsT)
    ensures ReloadedFrom(before, after, env)
  {
    LowFields(mid.regs[CTRL_MEAS_ADDR]);
    LowFields(after.regs[CTRL_MEAS_ADDR]);
  }
}

=== FILE: rawdata.dfy ===
/** The measurement burst at 0xF7: eight bytes that carry the raw 20-bit
    pressure and temperature readings and the raw 16-bit humidity reading. */
module RawData {
  import opened Bits
  import opened Registers

  /** `struct bme280_uncomp_data`. */
  datatype UncompData = UncompData(pressure: uint32, temperature: uint32, humidity: uint32)

  /** `(u32)msb << 12 | (u32)lsb << 4 | (u32)xlsb >> 4`: the top nibble of
      `xlsb` completes a 20-bit reading. */
  function Join20(msb: uint8, lsb: uint8, xlsb: uint8): (r: uint32)
    ensures r == msb as int * 4096 + lsb as int * 16 + xlsb / 16
    ensures r < 0x10_0000
  {
    assert Pow2(12) == 4096 && Pow2(4) == 16;
    OrDisjoint(msb, 16 * lsb, 12);
    var high := Or(4096 * msb, 16 * lsb);
    assert high == 16 * (256 * msb + lsb);
    OrDisjoint(256 * msb + lsb, xlsb / 16, 4);
    Or(high, xlsb / 16)
  }

  /** `(u32)msb | (u32)lsb << 8` for humidity, where the variable the
      driver calls `data_msb` holds the low byte (byte 7). */
  function Join16(high: uint8, low: uint8): (r: uint32)
    ensures r == high as int * 256 + low
    ensures r < 0x1_0000
  {
    assert Pow2(8) == 256;
    OrCommutes(low, 256 * high);
    OrDisjoint(high, low, 8);
    Or(low, 256 * high)
  }

  /** `bme280_parse_sensor_data`: bytes 0-2 hold pressure, bytes 3-5
      temperature (each most significant byte first, the last byte's low
      nibble unused) and bytes 6-7 humidity. */
  function ParseSensorData(regData: seq<uint8>): (r: UncompData)
    requires |regData| >= PRESS_TEMP_HUM_DATA_LEN
    ensures r.pressure == regData[0] as int * 4096 + regData[1] as int * 16 + regData[2] / 16
    ensures r.temperature == regData[3] as int * 4096 + regData[4] as int * 16 + regData[5] / 16
    ensures r.humidity == regData[6] as int * 256 + regData[7]
    ensures r.pressure < 0x10_0000 && r.temperature < 0x10_0000 && r.humidity < 0x1_0000
  {
    UncompData(
      Join20(regData[0], regData[1], regData[2]),
      Join20(regData[3], regData[4], regData[5]),
      Join16(regData[6], regData[7]))
  }

  /** The burst the device would have to send for the given raw readings,
      with the unused low nibbles zero. */
  function EncodeSensorData(u: UncompData): (bytes: seq<uint8>)
    requires u.pressure < 0x10_0000 && u.temperature < 0x10_0000 && u.humidity < 0x1_0000
    ensures |bytes| == PRESS_TEMP_HUM_DATA_LEN
  {
    [u.pressure / 4096, (u.pressure / 16) % 256, (u.pressure % 16) * 16,
     u.temperature / 4096, (u.temperature / 16) % 256, (u.temperature % 16) * 16,
     u.humidity / 256, u.humidity % 256]
  }

  /** Decoding an encoded burst gives back the raw readings. */
  lemma SensorDataRoundTrip(u: UncompData)
    requires u.pressure < 0x10_0000 && u.temperature < 0x10_0000 && u.humidity < 0x1_0000
    ensures ParseSensorData(EncodeSensorData(u)) == u
  {
    var b := EncodeSensorData(u);
    Split20(u.pressure);
    Split20(u.temperature);
  }

  lemma Split20(v: nat)
    requires v < 0x10_0000
    ensures (v / 4096) * 4096 + ((v / 16) % 256) * 16 + ((v % 16) * 16) / 16 == v
  {
  }

  /** Encoding a decoded burst gives back the burst except the two low
      nibbles the decoder ignores: no other bit is lost. */
  lemma SensorDataBytesRoundTrip(regData: seq<uint8>)
    requires |regData| == PRESS_TEMP_HUM_DATA_LEN
    ensures EncodeSensorData(ParseSensorData(regData))
            == regData[2 := regData[2] - regData[2] % 16][5 := regData[5] - regData[5] % 16]
  {
    var u := ParseSensorData(regData);
    Bytes20(regData[0], regData[1], regData[2]);
    Bytes20(regData[3], regData[4], regData[5]);
    var e := EncodeSensorData(u);
    var d := regData[2 := regData[2] - regData[2] % 16][5 := regData[5] - regData[5] % 16];
    assert e == [d[0], d[1], d[2], d[3], d[4], d[5], d[6], d[7]];
  }

  lemma Bytes20(msb: uint8, lsb: uint8, xlsb: uint8)
    ensures var v := msb as int * 4096 + lsb as int * 16 + xlsb / 16;
            v / 4096 == msb && (v / 16) % 256 == lsb && (v % 16) * 16 == xlsb - xlsb % 16
  {
    var v := msb as int * 4096 + lsb as int * 16 + xlsb / 16;
    assert v == 16 * (256 * msb + lsb) + xlsb / 16;
    assert v / 16 == 256 * msb + lsb && v % 16 == xlsb / 16;
    assert v / 4096 == (v / 16) / 256;
  }
}

=== FILE: registers.dfy ===
/** The driver's header: status codes, the register map, the selector
    masks and enumeration codes, the bit layouts of the three control
    registers, and the byte-concatenation macro. */
module Registers {
  import opened Bits

  /** Status codes of every driver operation. */
  datatype Status =
    | Ok
    | NullPtr
    | InvalidLen
    | CommFail
    | SleepModeFail
    | NvmCopyFailed
    | InvalidOsrsMacro
  {
    /** The numeric value the C function returns. */
    function Code(): (r: int)
    {
      match this
      case Ok => 0
      case NullPtr => -1
      case InvalidLen => -2
      case CommFail => -3
      case SleepModeFail => -4
      case NvmCopyFailed => -5
      case InvalidOsrsMacro => 1
    }

    /** The `BME280_E_*` codes; `BME280_W_INVALID_OSRS_MACRO` is a warning. */
    predicate IsError()
    {
      !Ok? && !InvalidOsrsMacro?
    }
  }

  // Register addresses
  const CHIP_ID_ADDR: uint8 := 0xD0
  const RESET_ADDR: uint8 := 0xE0
  const TEMP_PRESS_CALIB_DATA_ADDR: uint8 := 0x88
  const HUM_CALIB_DATA_ADDR: uint8 := 0xE1
  const STATUS_ADDR: uint8 := 0xF3
  const CONFIG_ADDR: uint8 := 0xF5
  const CTRL_MEAS_ADDR: uint8 := 0xF4
  const CTRL_HUM_ADDR: uint8 := 0xF2
  const DATA_ADDR: uint8 := 0xF7

  // Block lengths
  const TEMP_PRESS_CALIB_DATA_LEN: nat := 26
  const HUM_CALIB_DATA_LEN: nat := 7
  const PRESS_TEMP_HUM_DATA_LEN: nat := 8

  // Sensor component selection (`1 << 1` and `1 << 2` written out)
  const PRESS: uint8 := 1
  const TEMP: uint8 := 2
  const HUM: uint8 := 4
  const ALL: uint8 := 0x07

  // Settings selection
  const OSRS_PRESS_SEL: uint8 := 1
  const OSRS_TEMP_SEL: uint8 := 2
  const OSRS_HUM_SEL: uint8 := 4
  const FILTER_SEL: uint8 := 8
  const STANDBY_TIME_SEL: uint8 := 16
  const ALL_SETTINGS_SEL: uint8 := 0x1F
  /** `BME280_OSRS_PRESS_SEL | BME280_OSRS_TEMP_SEL`, the test that guards
      the ctrl_meas update. */
  const OSRS_PRESS_TEMP_SEL: uint8 := 0x03

  // Settings groups, private to the driver source
  const OVERSAMPLING_SETTINGS: uint8 := 0x07
  const FILTER_STANDBY_SETTINGS: uint8 := 0x18

  // Power modes
  const SLEEP_MODE: uint8 := 0x00
  const FORCED_MODE: uint8 := 0x01
  const NORMAL_MODE: uint8 := 0x03

  // Oversampling, filter coefficient and standby duration codes
  const OVERSAMPLING_CODES: seq<uint8> := [0x00, 0x01, 0x02, 0x03, 0x04, 0x05]
  const FILTER_CODES: seq<uint8> := [0x00, 0x01, 0x02, 0x03, 0x04]
  const STANDBY_CODES: seq<uint8> := [0x00, 0x01, 0x02, 0x03, 0x04, 0x05, 0x06, 0x07]
  const POWER_MODES: seq<uint8> := [SLEEP_MODE, FORCED_MODE, NORMAL_MODE]

  const SOFT_RESET_COMMAND: uint8 := 0xB6
  const STATUS_IM_UPDATE: uint8 := 0x01

  /** C's truth test `selector & mask`. */
  predicate Selects(selector: uint8, mask: uint8)
  {
    And(selector, mask) != 0
  }

  /** Every status code is distinct; success is 0, errors are negative and
      the one warning is positive. */
  lemma StatusCodeSigns()
    ensures Ok.Code() == 0 && InvalidOsrsMacro.Code() > 0
    ensures forall s: Status :: s.IsError() ==> s.Code() < 0
    ensures forall s: Status, t: Status :: s.Code() == t.Code() ==> s == t
  {
  }

  /** The composite selectors are the ORs of their parts, and the two
      settings groups partition `ALL_SETTINGS_SEL`. */
  lemma SelectorMasks()
    ensures ALL == Or(Or(PRESS, TEMP), HUM)
    ensures ALL_SETTINGS_SEL
            == Or(Or(Or(Or(OSRS_PRESS_SEL, OSRS_TEMP_SEL), OSRS_HUM_SEL), FILTER_SEL), STANDBY_TIME_SEL)
    ensures And(OVERSAMPLING_SETTINGS, FILTER_STANDBY_SETTINGS) == 0
    ensures Or(OVERSAMPLING_SETTINGS, FILTER_STANDBY_SETTINGS) == ALL_SETTINGS_SEL
    ensures OSRS_PRESS_TEMP_SEL == Or(OSRS_PRESS_SEL, OSRS_TEMP_SEL)
  {
  }

  /** Every enumeration code fits the register field that holds it: 3 bits
      for oversampling, filter and standby codes, 2 bits for power modes. */
  lemma EnumCodesFit()
    ensures forall i :: 0 <= i < |OVERSAMPLING_CODES| ==> OVERSAMPLING_CODES[i] < 8
    ensures forall i :: 0 <= i < |FILTER_CODES| ==> FILTER_CODES[i] < 8
    ensures forall i :: 0 <= i < |STANDBY_CODES| ==> STANDBY_CODES[i] < 8
    ensures forall i :: 0 <= i < |POWER_MODES| ==> POWER_MODES[i] < 4
  {
  }

  /** What each selector test used by the driver means bit by bit. */
  lemma SelectorBits(x: uint8)
    ensures Selects(x, 1) <==> x % 2 == 1
    ensures Selects(x, 2) <==> (x / 2) % 2 == 1
    ensures Selects(x, 4) <==> (x / 4) % 2 == 1
    ensures Selects(x, 8) <==> (x / 8) % 2 == 1
    ensures Selects(x, 16) <==> (x / 16) % 2 == 1
    ensures Selects(x, 3) <==> x % 4 != 0
    ensures Selects(x, 7) <==> x % 8 != 0
    ensures Selects(x, 0x18) <==> (x / 8) % 4 != 0
  {
    SelectsLowMasks(x);
    SelectsMask2(x);
    SelectsMask4(x);
    SelectsMask8(x);
    SelectsMask16(x);
    SelectsMask24(x);
  }

  /** `ALL_SETTINGS_SEL` selects every setting and both groups. */
  lemma AllSettingsSelected()
    ensures Selects(ALL_SETTINGS_SEL, OSRS_PRESS_SEL) && Selects(ALL_SETTINGS_SEL, OSRS_TEMP_SEL)
    ensures Selects(ALL_SETTINGS_SEL, OSRS_HUM_SEL) && Selects(ALL_SETTINGS_SEL, FILTER_SEL)
    ensures Selects(ALL_SETTINGS_SEL, STANDBY_TIME_SEL) && Selects(ALL_SETTINGS_SEL, OSRS_PRESS_TEMP_SEL)
    ensures Selects(ALL_SETTINGS_SEL, OVERSAMPLING_SETTINGS) && Selects(ALL_SETTINGS_SEL, FILTER_STANDBY_SETTINGS)
  {
    SelectorBits(ALL_SETTINGS_SEL);
  }

  /** A bit of a group is selected only if the group's mask is. */
  lemma SelectsGroups(x: uint8)
    ensures Selects(x, 7) <==> Selects(x, 1) || Selects(x, 2) || Selects(x, 4)
    ensures Selects(x, 3) <==> Selects(x, 1) || Selects(x, 2)
    ensures Selects(x, 0x18) <==> Selects(x, 8) || Selects(x, 16)
  {
    SelectorBits(x);
  }

  lemma SelectsLowMasks(x: nat)
    ensures And(x, 1) == x % 2 && And(x, 3) == x % 4 && And(x, 7) == x % 8
  {
    assert Pow2(1) == 2 && Pow2(2) == 4 && Pow2(3) == 8;
    AndLowMask(x / 2, x % 2, 1);
    AndLowMask(x / 4, x % 4, 2);
    AndLowMask(x / 8, x % 8, 3);
  }

  /** One step of a mask whose lowest bit is clear: `x & 2m` is twice
      `(x / 2) & m`. */
  lemma SelectsShifted(x: nat, m: nat)
    ensures And(x, 2 * m) == 2 * And(x / 2, m)
  {
    assert x == 2 * (x / 2) + x % 2;
    AndShift(x / 2, x % 2, m);
  }

  lemma SelectsMask2(x: nat)
    ensures And(x, 2) == 2 * ((x / 2) % 2)
  {
    SelectsShifted(x, 1);
    SelectsLowMasks(x / 2);
  }

  lemma SelectsMask4(x: nat)
    ensures And(x, 4) == 4 * ((x / 4) % 2)
  {
    SelectsShifted(x, 2);
    SelectsMask2(x / 2);
    assert x / 2 / 2 == x / 4;
  }

  lemma SelectsMask8(x: nat)
    ensures And(x, 8) == 8 * ((x / 8) % 2)
  {
    SelectsShifted(x, 4);
    SelectsMask4(x / 2);
    assert x / 2 / 4 == x / 8;
  }

  lemma SelectsMask16(x: nat)
    ensures And(x, 16) == 16 * ((x / 16) % 2)
  {
    SelectsShifted(x, 8);
    SelectsMask8(x / 2);
    assert x / 2 / 8 == x / 16;
  }

  lemma SelectsMask24(x: nat)
    ensures And(x, 0x18) == 8 * ((x / 8) % 4)
  {
    SelectsShifted(x, 12);
    SelectsShifted(x / 2, 6);
    SelectsShifted(x / 4, 3);
    assert x / 2 / 2 == x / 4 && x / 4 / 2 == x / 8;
    SelectsLowMasks(x / 8);
  }

  /** `bme280_concat_bytes(msb, lsb)`, that is `((u16)msb << 8) | (u16)lsb`,
      as an unsigned value: the big-endian reading of the pair. */
  function ConcatBytes(msb: uint8, lsb: uint8): (r: uint16)
    ensures r == msb * 256 + lsb
  {
    assert Pow2(8) == 256;
    OrDisjoint(msb, lsb, 8);
    Or(msb * 256, lsb)
  }

  /** The two's-complement reading of a byte. */
  function Signed8(b: uint8): (r: int)
  {
    if b < 0x80 then b else b - 0x100
  }

  /** The two's-complement reading of a big-endian byte pair. */
  function Signed16(msb: uint8, lsb: uint8): (r: int)
  {
    if msb < 0x80 then msb * 256 + lsb else msb * 256 + lsb - 0x1_0000
  }

  /** `(s16)bme280_concat_bytes(msb, lsb)` stored into an `s16` field. The
      macro body has no outer parentheses, so the cast applies to
      `(u16)msb << 8` alone and the OR is then evaluated on `int`; the result
      is still the two's-complement reading of the pair. */
  function ConcatBytesSigned(msb: uint8, lsb: uint8): (r: int16)
    ensures r == Signed16(msb, lsb)
  {
    var high := ToS16(msb * 256);
    assert high % 256 == 0;
    assert Pow2(8) == 256;
    OrS32Disjoint(high, lsb, 8);
    ToS16(OrS32(high, lsb))
  }

  /** ctrl_meas (0xF4): `mode` in bits 0-1, `osrs_p` in bits 2-4, `osrs_t`
      in bits 5-7 (GCC allocates bit-fields from the least significant bit). */
  datatype CtrlMeas = CtrlMeas(mode: uint2, osrsP: uint3, osrsT: uint3)

  function UnpackCtrlMeas(reg: uint8): (r: CtrlMeas)
  {
    CtrlMeas(reg % 4, (reg / 4) % 8, reg / 32)
  }

  function PackCtrlMeas(f: CtrlMeas): (r: uint8)
  {
    f.mode + 4 * f.osrsP + 32 * f.osrsT
  }

  /** ctrl_hum (0xF2): `osrs_h` in bits 0-2, reserved bits 3-7. */
  datatype CtrlHum = CtrlHum(osrsH: uint3, reserved: uint5)

  function UnpackCtrlHum(reg: uint8): (r: CtrlHum)
  {
    CtrlHum(reg % 8, reg / 8)
  }

  function PackCtrlHum(f: CtrlHum): (r: uint8)
  {
    f.osrsH + 8 * f.reserved
  }

  /** config (0xF5): `spi3w_en` in bit 0, a reserved bit 1, `filter` in
      bits 2-4, `t_sb` in bits 5-7. */
  datatype Config = Config(spi3wEn: uint1, reserved: uint1, filter: uint3, tSb: uint3)

  function UnpackConfig(reg: uint8): (r: Config)
  {
    Config(reg % 2, (reg / 2) % 2, (reg / 4) % 8, reg / 32)
  }

  function PackConfig(f: Config): (r: uint8)
  {
    f.spi3wEn + 2 * f.reserved + 4 * f.filter + 32 * f.tSb
  }

  /** Storing a value into a 3-bit field keeps its low 3 bits. */
  function Field3(v: uint8): (r: uint3)
  {
    v % 8
  }

  /** Reading the ctrl_meas fields and writing them back reproduces the
      byte, and packing fields then reading them back returns the fields. */
  lemma CtrlMeasLayout(reg: uint8, f: CtrlMeas)
    ensures PackCtrlMeas(UnpackCtrlMeas(reg)) == reg
    ensures UnpackCtrlMeas(PackCtrlMeas(f)) == f
  {
    CtrlMeasPackUnpack(reg);
    CtrlMeasUnpackPack(f);
  }

  lemma CtrlMeasPackUnpack(reg: uint8)
    ensures PackCtrlMeas(UnpackCtrlMeas(reg)) == reg
  {
    var a := reg / 4;
    assert reg == 4 * a + reg % 4;
    assert a == 8 * (a / 8) + a % 8;
    assert a / 8 == reg / 32;
  }

  lemma CtrlMeasUnpackPack(f: CtrlMeas)
    ensures UnpackCtrlMeas(PackCtrlMeas(f)) == f
  {
    var h := f.osrsP + 8 * f.osrsT;
    var b := PackCtrlMeas(f);
    assert b == f.mode + 4 * h;
    assert b % 4 == f.mode && b / 4 == h;
    assert h % 8 == f.osrsP && h / 8 == f.osrsT;
    assert b / 32 == h / 8;
  }

  /** Assigning the mode field changes bits 0-1 only; assigning `osrs_t`
      changes bits 5-7 only. */
  lemma CtrlMeasFieldUpdate(reg: uint8, m: uint2, t: uint3)
    ensures var b := PackCtrlMeas(UnpackCtrlMeas(reg).(mode := m));
            b % 4 == m && b / 4 == reg / 4
    ensures var b := PackCtrlMeas(UnpackCtrlMeas(reg).(osrsT := t));
            b / 32 == t && b % 32 == reg % 32
  {
    var f := UnpackCtrlMeas(reg);
    CtrlMeasPackUnpack(reg);
    CtrlMeasUnpackPack(f.(mode := m));
    CtrlMeasUnpackPack(f.(osrsT := t));
    assert reg % 32 == f.mode + 4 * f.osrsP by {
      assert reg == 32 * f.osrsT + (f.mode + 4 * f.osrsP);
    }
  }

  /** ctrl_hum's `osrs_h` occupies bits 0-2, apart from the reserved bits. */
  lemma CtrlHumLayout(reg: uint8, f: CtrlHum)
    ensures PackCtrlHum(UnpackCtrlHum(reg)) == reg
    ensures UnpackCtrlHum(PackCtrlHum(f)) == f
    ensures PackCtrlHum(f) % 8 == f.osrsH && PackCtrlHum(f) / 8 == f.reserved
  {
  }

  /** Reading the config fields and writing them back reproduces the byte,
      and packing fields then reading them back returns them. */
  lemma ConfigLayout(reg: uint8, f: Config)
    ensures PackConfig(UnpackConfig(reg)) == reg
    ensures UnpackConfig(PackConfig(f)) == f
  {
    var a := reg / 2;
    var c := reg / 4;
    assert reg == 2 * a + reg % 2;
    assert a == 2 * (a / 2) + a % 2 && a / 2 == c;
    assert c == 8 * (c / 8) + c % 8 && c / 8 == reg / 32;
    ConfigUnpackPack(f);
  }

  lemma ConfigUnpackPack(f: Config)
    ensures UnpackConfig(PackConfig(f)) == f
  {
    var b := PackConfig(f);
    var h := f.reserved + 2 * f.filter + 16 * f.tSb;
    assert b == 2 * h + f.spi3wEn;
    assert b % 2 == f.spi3wEn && b / 2 == h;
    assert h % 2 == f.reserved && h / 2 == f.filter + 8 * f.tSb;
    assert b / 4 == h / 2;
    assert b / 32 == f.tSb;
  }

  /** Assigning `filter` or `t_sb` leaves every other config bit as it was. */
  lemma ConfigFieldUpdate(reg: uint8, flt: uint3, tsb: uint3)
    ensures var b := PackConfig(UnpackConfig(reg).(filter := flt));
            b % 4 == reg % 4 && (b / 4) % 8 == flt && b / 32 == reg / 32
    ensures var b := PackConfig(UnpackConfig(reg).(tSb := tsb));
            b % 32 == reg % 32 && b / 32 == tsb
  {
    var f := UnpackConfig(reg);
    ConfigLayout(reg, f.(filter := flt));
    ConfigUnpackPack(f.(tSb := tsb));
    ConfigSplit(PackConfig(f.(filter := flt)));
    ConfigSplit(PackConfig(f.(tSb := tsb)));
    ConfigSplit(reg);
  }

  /** Bits 0-1 and bits 2-4 of a byte are determined by its bits 0-4. */
  lemma LowFields(x: uint8)
    ensures x % 4 == (x % 32) % 4 && (x / 4) % 8 == (x % 32) / 4
  {
    var q := x / 32;
    var r := x % 32;
    assert x == 32 * q + r;
    assert x / 4 == 8 * q + r / 4;
  }

  /** The config byte as its low two bits, the filter and the standby time. */
  lemma ConfigSplit(reg: uint8)
    ensures var f := UnpackConfig(reg);
            reg % 4 == f.spi3wEn + 2 * f.reserved && (reg / 4) % 8 == f.filter
            && reg % 32 == reg % 4 + 4 * f.filter && reg / 32 == f.tSb
  {
    var a := reg / 2;
    assert reg == 2 * a + reg % 2;
    assert a == 2 * (a / 2) + a % 2 && a / 2 == reg / 4;
    var c := reg / 4;
    assert reg == 4 * c + reg % 4;
    assert c == 8 * (c / 8) + c % 8 && c / 8 == reg / 32;
  }
}

=== FILE: settings.dfy ===
/** The settings reconciler: parsing the three control registers into
    `struct bme280_settings`, and the read-modify-write helpers that push
    selected settings back into ctrl_hum, ctrl_meas and config. */
module Settings {
  import opened Bits
  import opened Registers
  import opened Transport

  /** `struct bme280_settings`: every field is a byte in the driver, of
      which the register fields keep the low three bits. */
  datatype SensorSettings = SensorSettings(osrsP: uint8, osrsT: uint8, osrsH: uint8, filter: uint8, standbyTime: uint8)

  /** `parse_device_settings`: the five fields read out of the config,
      ctrl_meas and ctrl_hum bytes. */
  function ParseDeviceSettings(config: uint8, ctrlMeas: uint8, ctrlHum: uint8): (s: SensorSettings)
    ensures s.osrsH == ctrlHum % 8
    ensures s.osrsP == (ctrlMeas / 4) % 8 && s.osrsT == ctrlMeas / 32
    ensures s.filter == (config / 4) % 8 && s.standbyTime == config / 32
    ensures s.osrsP < 8 && s.osrsT < 8 && s.osrsH < 8 && s.filter < 8 && s.standbyTime < 8
    ensures s.osrsH % 8 == ctrlHum % 8
  {
    var meas := UnpackCtrlMeas(ctrlMeas);
    var conf := UnpackConfig(config);
    SensorSettings(meas.osrsP, meas.osrsT, UnpackCtrlHum(ctrlHum).osrsH, conf.filter, conf.tSb)
  }

  /** Settings whose fields fit their registers are recovered exactly from
      any register bytes that carry them, whatever the other bits hold. */
  lemma ParseDeviceSettingsInverts(s: SensorSettings, meas: CtrlMeas, hum: CtrlHum, conf: Config)
    requires s.osrsP < 8 && s.osrsT < 8 && s.osrsH < 8 && s.filter < 8 && s.standbyTime < 8
    requires meas.osrsP == s.osrsP && meas.osrsT == s.osrsT && hum.osrsH == s.osrsH
    requires conf.filter == s.filter && conf.tSb == s.standbyTime
    ensures ParseDeviceSettings(PackConfig(conf), PackCtrlMeas(meas), PackCtrlHum(hum)) == s
  {
    CtrlMeasUnpackPack(meas);
    CtrlHumLayout(0, hum);
    ConfigUnpackPack(conf);
  }

  /** The outcome of reading the three control registers. */
  datatype SettingsRead = SettingsRead(status: Status, settings: SensorSettings, bus: Bus)

  /** The transactions of a complete settings read, in order. */
  const SETTINGS_READS: seq<Op> := [Read(CTRL_HUM_ADDR, 1), Read(CTRL_MEAS_ADDR, 1), Read(CONFIG_ADDR, 1)]

  /** The reads of ctrl_hum, ctrl_meas and config shared by
      `bme280_get_sensor_settings` and `put_device_to_sleep`, stopping at
      the first failure. On success the settings are those the device's
      registers hold; on failure `prev` is kept. */
  method ReadSettings(bus: Bus, env: Env, prev: SensorSettings) returns (r: SettingsRead)
    ensures r.bus.chip == bus.chip
    ensures 1 <= |r.bus.trace| - |bus.trace| <= 3
            && r.bus.trace == bus.trace + SETTINGS_READS[..|r.bus.trace| - |bus.trace|]
    ensures r.status == Ok || r.status == CommFail
    ensures r.status == Ok <==> Succeed(env, |bus.trace|, |bus.trace| + 3)
    ensures r.status == Ok
            ==> |r.bus.trace| == |bus.trace| + 3
                && r.settings == ParseDeviceSettings(bus.chip.regs[CONFIG_ADDR], bus.chip.regs[CTRL_MEAS_ADDR],
                                                     bus.chip.regs[CTRL_HUM_ADDR])
    ensures r.status != Ok
            ==> r.settings == prev && |r.bus.trace| - 1 in env.fails
                && Succeed(env, |bus.trace|, |r.bus.trace| - 1)
  {
    var n := |bus.trace|;
    var hum := GetReg(bus, env, CTRL_HUM_ADDR, env.junk);
    if hum.status != Ok {
      return SettingsRead(hum.status, prev, hum.bus);
    }
    var meas := GetReg(hum.bus, env, CTRL_MEAS_ADDR, env.junk);
    if meas.status != Ok {
      assert SETTINGS_READS[..2] == [Read(CTRL_HUM_ADDR, 1), Read(CTRL_MEAS_ADDR, 1)];
      return SettingsRead(meas.status, prev, meas.bus);
    }
    var conf := GetReg(meas.bus, env, CONFIG_ADDR, env.junk);
    assert SETTINGS_READS[..3] == SETTINGS_READS;
    SucceedSplit(env, n, n + 1, n + 2);
    SucceedSplit(env, n, n + 2, n + 3);
    if conf.status != Ok {
      return SettingsRead(conf.status, prev, conf.bus);
    }
    r := SettingsRead(Ok, ParseDeviceSettings(conf.value, meas.value, hum.value), conf.bus);
  }

  /** What `set_osrs_press_temp_settings` writes back into ctrl_meas:
      bits 0-4 (mode and `osrs_p`) as read; bits 5-7 (`osrs_t`) the
      temperature oversampling when OSRS_TEMP_SEL is selected, otherwise
      the PRESSURE oversampling when OSRS_PRESS_SEL is (the pressure branch
      assigns `osrs_t`), otherwise as read. */
  predicate PressTempUpdated(before: uint8, after: uint8, desired: uint8, s: SensorSettings)
  {
    after % 32 == before % 32
    && after / 32 == if Selects(desired, OSRS_TEMP_SEL) then s.osrsT % 8
                     else if Selects(desired, OSRS_PRESS_SEL) then s.osrsP % 8
                     else before / 32
  }

  /** The ctrl_meas byte after the field assignments of
      `set_osrs_press_temp_settings`. */
  function PressTempByte(reg: uint8, desired: uint8, s: SensorSettings): (b: uint8)
    ensures PressTempUpdated(reg, b, desired, s)
  {
    var f := UnpackCtrlMeas(reg);
    var f := if Selects(desired, OSRS_PRESS_SEL) then f.(osrsT := Field3(s.osrsP)) else f;
    var f := if Selects(desired, OSRS_TEMP_SEL) then f.(osrsT := Field3(s.osrsT)) else f;
    CtrlMeasPackUnpack(reg);
    CtrlMeasFieldUpdate(reg, 0, Field3(s.osrsP));
    CtrlMeasFieldUpdate(reg, 0, Field3(s.osrsT));
    PackCtrlMeas(f)
  }

  /** Whatever is selected, the pressure oversampling and the mode are never
      changed by the ctrl_meas update. */
  lemma PressureOversamplingNeverWritten(reg: uint8, desired: uint8, s: SensorSettings)
    ensures var after := UnpackCtrlMeas(PressTempByte(reg, desired, s));
            after.osrsP == UnpackCtrlMeas(reg).osrsP && after.mode == UnpackCtrlMeas(reg).mode
  {
    var b := PressTempByte(reg, desired, s);
    LowFields(b);
    LowFields(reg);
  }

  /** `set_osrs_press_temp_settings`: a read-modify-write of ctrl_meas. */
  method SetOsrsPressTemp(bus: Bus, env: Env, desired: uint8, s: SensorSettings) returns (r: Step)
    ensures r.status == Ok || r.status == CommFail
    ensures r.status == Ok <==> Succeed(env, |bus.trace|, |bus.trace| + 2)
    ensures r.status != Ok ==> |r.bus.trace| - 1 in env.fails
    ensures |bus.trace| in env.fails
            ==> r == Step(CommFail, bus.(trace := bus.trace + [Read(CTRL_MEAS_ADDR, 1)]))
    ensures |bus.trace| !in env.fails
            ==> (var w := PressTempByte(bus.chip.regs[CTRL_MEAS_ADDR], desired, s);
                 r.bus.trace == bus.trace + [Read(CTRL_MEAS_ADDR, 1), Write(CTRL_MEAS_ADDR, w)]
                 && r.bus.chip == if r.status == Ok then Commit(bus.chip, CTRL_MEAS_ADDR, w) else bus.chip)
  {
    r := ModifyReg(bus, env, CTRL_MEAS_ADDR, reg => PressTempByte(reg, desired, s));
  }

  /** The ctrl_hum byte `set_osrs_humidity_settings` writes: only `osrs_h`
      of the union is assigned, so the reserved bits 3-7 are whatever the
      stack held. */
  function HumByte(env: Env, s: SensorSettings): (b: uint8)
    ensures b % 8 == s.osrsH % 8 && b / 8 == env.junk / 8
  {
    var f := UnpackCtrlHum(env.junk).(osrsH := Field3(s.osrsH));
    CtrlHumLayout(env.junk, f);
    PackCtrlHum(f)
  }

  /** The transactions of a complete humidity update, in order: the ctrl_hum
      write, then the read of ctrl_meas and the write of the byte just read,
      which makes the new ctrl_hum take effect. */
  function HumidityOps(bus: Bus, env: Env, s: SensorSettings): (r: seq<Op>)
  {
    [Write(CTRL_HUM_ADDR, HumByte(env, s)), Read(CTRL_MEAS_ADDR, 1),
     Write(CTRL_MEAS_ADDR, bus.chip.regs[CTRL_MEAS_ADDR])]
  }

  /** `set_osrs_humidity_settings`: write ctrl_hum, then rewrite ctrl_meas
      with the byte read from it. The ctrl_meas byte never changes; on
      success the new humidity oversampling is stored and in effect; on
      failure it is not in effect. */
  method SetOsrsHumidity(bus: Bus, env: Env, s: SensorSettings) returns (r: Step)
    ensures r.status == Ok || r.status == CommFail
    ensures r.status == Ok <==> Succeed(env, |bus.trace|, |bus.trace| + 3)
    ensures r.status == Ok ==> r.bus.trace == bus.trace + HumidityOps(bus, env, s)
    ensures 1 <= |r.bus.trace| - |bus.trace| <= 3
            && r.bus.trace == bus.trace + HumidityOps(bus, env, s)[..|r.bus.trace| - |bus.trace|]
    ensures r.status != Ok
            ==> |r.bus.trace| - 1 in env.fails && Succeed(env, |bus.trace|, |r.bus.trace| - 1)
    ensures r.bus.chip.regs == if |bus.trace| in env.fails then bus.chip.regs
                               else bus.chip.regs[CTRL_HUM_ADDR := HumByte(env, s)]
    ensures r.bus.chip.humLatched == if r.status == Ok then s.osrsH % 8 else bus.chip.humLatched
  {
    var n := |bus.trace|;
    var ops := HumidityOps(bus, env, s);
    assert ops[..1] == [ops[0]] && ops[..2] == [ops[0], ops[1]] && ops[..3] == ops;
    r := SetReg(bus, env, CTRL_HUM_ADDR, HumByte(env, s));
    if r.status != Ok {
      return;
    }
    r := ModifyReg(r.bus, env, CTRL_MEAS_ADDR, reg => reg);
    SucceedSplit(env, n, n + 1, n + 3);
    SucceedSplit(env, n, n + 1, n + 2);
  }

  /** `set_osrs_settings`: the humidity update when OSRS_HUM_SEL is selected,
      then the ctrl_meas update when OSRS_PRESS_SEL or OSRS_TEMP_SEL is; the
      status is that of the last step taken, so a failed humidity update is
      masked by a successful ctrl_meas update. */
  method SetOsrs(bus: Bus, env: Env, desired: uint8, s: SensorSettings) returns (r: Step)
    ensures r.status == Ok || r.status == CommFail || r.status == InvalidOsrsMacro
    ensures r.status == InvalidOsrsMacro <==> !Selects(desired, OVERSAMPLING_SETTINGS)
    ensures !Selects(desired, OVERSAMPLING_SETTINGS) ==> r.bus == bus
    ensures Selects(desired, OVERSAMPLING_SETTINGS) ==> Extends(r.bus, bus)
    ensures r.status == CommFail ==> |r.bus.trace| - 1 in env.fails
    ensures forall a :: (0 <= a < 256 && a != CTRL_HUM_ADDR as int && a != CTRL_MEAS_ADDR as int)
              ==> r.bus.chip.regs[a] == bus.chip.regs[a]
    ensures r.bus.chip.regs[CTRL_HUM_ADDR]
            == if Selects(desired, OSRS_HUM_SEL) && |bus.trace| !in env.fails then HumByte(env, s)
               else bus.chip.regs[CTRL_HUM_ADDR]
    ensures r.bus.chip.regs[CTRL_MEAS_ADDR] % 32 == bus.chip.regs[CTRL_MEAS_ADDR] % 32
    ensures !Selects(desired, OSRS_PRESS_TEMP_SEL)
            ==> r.bus.chip.regs[CTRL_MEAS_ADDR] == bus.chip.regs[CTRL_MEAS_ADDR]
    ensures Selects(desired, OSRS_PRESS_TEMP_SEL) && r.status == Ok
            ==> r.bus.chip.regs[CTRL_MEAS_ADDR] == PressTempByte(bus.chip.regs[CTRL_MEAS_ADDR], desired, s)
                && r.bus.chip.humLatched == r.bus.chip.regs[CTRL_HUM_ADDR] % 8
    ensures Selects(desired, OSRS_HUM_SEL) && Succeed(env, |bus.trace|, |r.bus.trace|)
            ==> r.status == Ok && r.bus.chip.humLatched == s.osrsH % 8
                && r.bus.chip.regs[CTRL_HUM_ADDR] % 8 == s.osrsH % 8
    ensures Selects(desired, OSRS_HUM_SEL) && Selects(desired, OSRS_PRESS_TEMP_SEL)
            && |bus.trace| in env.fails && Succeed(env, |bus.trace| + 1, |bus.trace| + 3)
            ==> r.status == Ok && r.bus.chip.regs[CTRL_HUM_ADDR] == bus.chip.regs[CTRL_HUM_ADDR]
  {
    SelectsGroups(desired);
    r := Step(InvalidOsrsMacro, bus);
    if Selects(desired, OSRS_HUM_SEL) {
      r := SetOsrsHumidity(bus, env, s);
    }
    if Selects(desired, OSRS_PRESS_TEMP_SEL) {
      var hum := r;
      r := SetOsrsPressTemp(hum.bus, env, desired, s);
      SucceedSplit(env, |bus.trace|, |hum.bus.trace|, |r.bus.trace|);
      SucceedSplit(env, |hum.bus.trace|, |hum.bus.trace| + 1, |r.bus.trace|);
    }
  }

  /** What `set_filter_standby_time_settings` writes back into config: bits
      0-1 as read; `filter` and `t_sb` from the settings when selected,
      otherwise as read. */
  predicate ConfigUpdated(before: uint8, after: uint8, desired: uint8, s: SensorSettings)
  {
    after % 4 == before % 4
    && (after / 4) % 8 == (if Selects(desired, FILTER_SEL) then s.filter % 8 else (before / 4) % 8)
    && after / 32 == if Selects(desired, STANDBY_TIME_SEL) then s.standbyTime % 8 else before / 32
  }

  /** The config byte after the field assignments of
      `set_filter_standby_time_settings`. */
  function ConfigByte(reg: uint8, desired: uint8, s: SensorSettings): (b: uint8)
    ensures ConfigUpdated(reg, b, desired, s)
  {
    var f := UnpackConfig(reg);
    var f := if Selects(desired, FILTER_SEL) then f.(filter := Field3(s.filter)) else f;
    var f := if Selects(desired, STANDBY_TIME_SEL) then f.(tSb := Field3(s.standbyTime)) else f;
    ConfigUnpackPack(f);
    ConfigSplit(PackConfig(f));
    ConfigSplit(reg);
    PackConfig(f)
  }

  /** `set_filter_standby_time_settings`: a read-modify-write of config,
      which the device only takes while asleep. */
  method SetFilterStandby(bus: Bus, env: Env, desired: uint8, s: SensorSettings) returns (r: Step)
    ensures r.status == Ok || r.status == CommFail
    ensures r.status == Ok <==> Succeed(env, |bus.trace|, |bus.trace| + 2)
    ensures r.status != Ok ==> |r.bus.trace| - 1 in env.fails
    ensures |bus.trace| in env.fails
            ==> r == Step(CommFail, bus.(trace := bus.trace + [Read(CONFIG_ADDR, 1)]))
    ensures |bus.trace| !in env.fails
            ==> r.bus.trace == bus.trace + [Read(CONFIG_ADDR, 1),
                                            Write(CONFIG_ADDR, ConfigByte(bus.chip.regs[CONFIG_ADDR], desired, s))]
    ensures r.bus.chip == if r.status == Ok && bus.chip.regs[CTRL_MEAS_ADDR] % 4 == SLEEP_MODE as int
                          then bus.chip.(regs := bus.chip.regs[CONFIG_ADDR := ConfigByte(bus.chip.regs[CONFIG_ADDR], desired, s)])
                          else bus.chip
  {
    r := ModifyReg(bus, env, CONFIG_ADDR, reg => ConfigByte(reg, desired, s));
  }

  /** `reload_device_settings`: every oversampling setting, then, if that
      succeeded, filter and standby time. */
  method ReloadDeviceSettings(bus: Bus, env: Env, s: SensorSettings) returns (r: Step)
    ensures r.status == Ok || r.status == CommFail
    ensures Extends(r.bus, bus)
    ensures r.status != Ok ==> |r.bus.trace| - 1 in env.fails
    ensures forall a :: (0 <= a < 256 && a != CTRL_HUM_ADDR as int && a != CTRL_MEAS_ADDR as int
                         && a != CONFIG_ADDR as int)
              ==> r.bus.chip.regs[a] == bus.chip.regs[a]
    ensures r.bus.chip.regs[CTRL_MEAS_ADDR] % 32 == bus.chip.regs[CTRL_MEAS_ADDR] % 32
    ensures r.status == Ok
            ==> r.bus.chip.regs[CTRL_MEAS_ADDR] / 32 == s.osrsT % 8
                && r.bus.chip.humLatched == r.bus.chip.regs[CTRL_HUM_ADDR] % 8
                && (r.bus.chip.regs[CTRL_HUM_ADDR] == bus.chip.regs[CTRL_HUM_ADDR]
                    || r.bus.chip.regs[CTRL_HUM_ADDR] == HumByte(env, s))
    ensures r.status == Ok && bus.chip.regs[CTRL_MEAS_ADDR] % 4 == SLEEP_MODE as int
            ==> r.bus.chip.regs[CONFIG_ADDR] == ConfigByte(bus.chip.regs[CONFIG_ADDR], ALL_SETTINGS_SEL, s)
    ensures Succeed(env, |bus.trace|, |r.bus.trace|)
            ==> r.status == Ok && r.bus.chip.regs[CTRL_HUM_ADDR] % 8 == s.osrsH % 8
  {
    AllSettingsSelected();
    r := SetOsrs(bus, env, ALL_SETTINGS_SEL, s);
    if r.status != Ok {
      return;
    }
    var osrs := r;
    var meas := osrs.bus.chip.regs[CTRL_MEAS_ADDR];
    assert meas / 32 == s.osrsT % 8 by {
      assert PressTempUpdated(bus.chip.regs[CTRL_MEAS_ADDR], meas, ALL_SETTINGS_SEL, s);
    }
    LowFields(meas);
    LowFields(bus.chip.regs[CTRL_MEAS_ADDR]);
    assert meas % 4 == bus.chip.regs[CTRL_MEAS_ADDR] % 4;
    r := SetFilterStandby(osrs.bus, env, ALL_SETTINGS_SEL, s);
    SucceedSplit(env, |bus.trace|, |osrs.bus.trace|, |r.bus.trace|);
  }
}

=== FILE: transport.dfy ===
/** `bme280_get_regs` and `bme280_set_regs` over a model of the device:
    a 256-byte register file behind a bus whose transactions may fail, and
    the trace of every transaction the driver attempts.

    What the model leaves open is collected in an `Env`: which transactions
    fail (by their position in the trace), what the status register reads
    at each transaction (the NVM copy runs on its own clock), and the value
    of uninitialised stack bytes the driver happens to send or return.

    How the device reacts to a write is a modelling assumption, stated once
    in `Commit`. */
module Transport {
  import opened Bits
  import opened Registers

  type RegFile = s: seq<uint8> | |s| == 256 witness seq(256, _ => 0)

  /** One bus transaction: a block read of `len` bytes or a one-byte write. */
  datatype Op = Read(addr: uint8, len: nat) | Write(addr: uint8, value: uint8)

  datatype Env = Env(fails: set<nat>, status: nat -> uint8, junk: uint8)

  /** The device: its registers and the humidity oversampling it is
      actually using (ctrl_hum only takes effect at the next ctrl_meas
      write). */
  datatype Chip = Chip(regs: RegFile, humLatched: uint3)

  /** The device and the transactions attempted so far. */
  datatype Bus = Bus(chip: Chip, trace: seq<Op>)

  /** The status of an operation and the bus after it. */
  datatype Step = Step(status: Status, bus: Bus)

  /** The outcome of a block read: `data` is empty unless it succeeded. */
  datatype BlockRead = BlockRead(status: Status, data: seq<uint8>, bus: Bus)

  /** The outcome of a one-byte read into a variable: `value` is what the
      variable holds afterwards. */
  datatype ByteRead = ByteRead(status: Status, value: uint8, bus: Bus)

  /** Every transaction in [from, to) goes through. */
  predicate Succeed(env: Env, from: nat, to: nat)
  {
    forall i :: from <= i < to ==> i !in env.fails
  }

  /** `after` is `before` followed by at least one more transaction. */
  predicate Extends(after: Bus, before: Bus)
  {
    |after.trace| > |before.trace| && after.trace[..|before.trace|] == before.trace
  }

  /** Extending is transitive, and keeps the transactions of the middle bus. */
  lemma ExtendsTrans(a: Bus, b: Bus, c: Bus)
    requires Extends(b, a) && Extends(c, b)
    ensures Extends(c, a) && c.trace[..|b.trace|] == b.trace
  {
    assert c.trace[..|a.trace|] == c.trace[..|b.trace|][..|a.trace|];
  }

  /** A bus that extends another still holds each of its transactions. */
  lemma ExtendsKeeps(a: Bus, b: Bus, i: nat)
    requires Extends(b, a) && i < |a.trace|
    ensures b.trace[i] == a.trace[i]
  {
    assert b.trace[i] == b.trace[..|a.trace|][i];
  }

  /** A run of successful transactions splits at any point, and a run of
      one is a single transaction that goes through. */
  lemma SucceedSplit(env: Env, a: nat, b: nat, c: nat)
    requires a <= b <= c
    ensures Succeed(env, a, c) <==> Succeed(env, a, b) && Succeed(env, b, c)
    ensures Succeed(env, a, a + 1) <==> a !in env.fails
  {
    assert Succeed(env, a, a + 1) ==> a !in env.fails;
  }

  /** What a read of register `a` returns as the next transaction. */
  function Peek(bus: Bus, env: Env, a: nat): (r: uint8)
  {
    if a == STATUS_ADDR as nat then env.status(|bus.trace|)
    else if a < 256 then bus.chip.regs[a]
    else env.junk
  }

  /** The device's reaction to a successful write (a modelling assumption):
      - the soft-reset command 0xB6 written to 0xE0 returns ctrl_hum,
        ctrl_meas and config to their power-on value 0 (the calibration
        registers are reloaded from NVM with the values they already hold);
      - a ctrl_hum write is stored but only takes effect (is latched) at
        the next ctrl_meas write;
      - a config write is ignored unless the device is in sleep mode;
      - writes anywhere else are ignored. */
  function Commit(chip: Chip, addr: uint8, value: uint8): (r: Chip)
    ensures forall a :: (0 <= a < 256 && a != CTRL_HUM_ADDR as int && a != CTRL_MEAS_ADDR as int
              && a != CONFIG_ADDR as int) ==> r.regs[a] == chip.regs[a]
    ensures addr == CTRL_MEAS_ADDR ==> r == Chip(chip.regs[CTRL_MEAS_ADDR := value], chip.regs[CTRL_HUM_ADDR] % 8)
    ensures addr == CTRL_HUM_ADDR ==> r == chip.(regs := chip.regs[CTRL_HUM_ADDR := value])
    ensures addr == CONFIG_ADDR ==>
              r == if chip.regs[CTRL_MEAS_ADDR] % 4 == SLEEP_MODE as int
                   then chip.(regs := chip.regs[CONFIG_ADDR := value]) else chip
    ensures addr == RESET_ADDR && value == SOFT_RESET_COMMAND
            ==> r == Chip(chip.regs[CTRL_HUM_ADDR := 0][CTRL_MEAS_ADDR := 0][CONFIG_ADDR := 0], 0)
    ensures addr != CTRL_MEAS_ADDR && addr != CTRL_HUM_ADDR && addr != CONFIG_ADDR
            && (addr != RESET_ADDR || value != SOFT_RESET_COMMAND)
            ==> r == chip
  {
    if addr == RESET_ADDR && value == SOFT_RESET_COMMAND then
      Chip(chip.regs[CTRL_HUM_ADDR := 0][CTRL_MEAS_ADDR := 0][CONFIG_ADDR := 0], 0)
    else if addr == CTRL_HUM_ADDR then
      chip.(regs := chip.regs[CTRL_HUM_ADDR := value])
    else if addr == CTRL_MEAS_ADDR then
      Chip(chip.regs[CTRL_MEAS_ADDR := value], chip.regs[CTRL_HUM_ADDR] % 8)
    else if addr == CONFIG_ADDR && chip.regs[CTRL_MEAS_ADDR] % 4 == SLEEP_MODE as int then
      chip.(regs := chip.regs[CONFIG_ADDR := value])
    else
      chip
  }

  /** The successful writes of `addrs`/`data`, in order. */
  function CommitAll(chip: Chip, addrs: seq<uint8>, data: seq<uint8>): (r: Chip)
    requires |addrs| == |data|
    decreases |addrs|
  {
    if |addrs| == 0 then chip
    else CommitAll(Commit(chip, addrs[0], data[0]), addrs[1..], data[1..])
  }

  /** `bme280_get_regs`: one block-read transaction. It fails when the bus
      fails or when it returns no byte (a read of length 0), and it never
      changes the device. */
  function GetRegs(bus: Bus, env: Env, addr: uint8, len: uint8): (r: BlockRead)
    ensures r.bus == bus.(trace := bus.trace + [Read(addr, len as nat)])
    ensures r.status == Ok <==> |bus.trace| !in env.fails && len > 0
    ensures r.status != Ok ==> r.status == CommFail && r.data == []
    ensures r.status == Ok ==> (|r.data| == len as int
              && forall i :: 0 <= i < len as int ==> r.data[i] == Peek(bus, env, addr as int + i))
  {
    var next := bus.(trace := bus.trace + [Read(addr, len as nat)]);
    if |bus.trace| in env.fails || len == 0 then
      BlockRead(CommFail, [], next)
    else
      var data := seq<uint8>(len, i requires 0 <= i < len as int => Peek(bus, env, addr as int + i));
      BlockRead(Ok, data, next)
  }

  /** The write loop of `bme280_set_regs`: one transaction per byte, in
      order, stopping at the first failure. On success every write was
      committed; on failure the writes before the failing one were. */
  function WriteBytes(bus: Bus, env: Env, addrs: seq<uint8>, data: seq<uint8>): (r: Step)
    requires |addrs| == |data|
    ensures r.status == Ok || r.status == CommFail
    ensures |bus.trace| < |r.bus.trace| <= |bus.trace| + |addrs| || (|addrs| == 0 && r.bus == bus)
    ensures r.bus.trace[..|bus.trace|] == bus.trace
    ensures forall i :: |bus.trace| <= i < |r.bus.trace|
              ==> r.bus.trace[i] == Write(addrs[i - |bus.trace|], data[i - |bus.trace|])
    ensures r.status == Ok ==> |r.bus.trace| == |bus.trace| + |addrs|
    ensures r.status == Ok <==> Succeed(env, |bus.trace|, |r.bus.trace|)
    ensures r.status == CommFail ==> (|r.bus.trace| - 1 in env.fails
              && Succeed(env, |bus.trace|, |r.bus.trace| - 1))
    ensures var done := |r.bus.trace| - |bus.trace| - (if r.status == Ok then 0 else 1);
            0 <= done <= |addrs| && r.bus.chip == CommitAll(bus.chip, addrs[..done], data[..done])
    decreases |addrs|
  {
    if |addrs| == 0 then Step(Ok, bus)
    else
      var next := bus.(trace := bus.trace + [Write(addrs[0], data[0])]);
      if |bus.trace| in env.fails then
        Step(CommFail, next)
      else
        var rest := WriteBytes(next.(chip := Commit(bus.chip, addrs[0], data[0])), env, addrs[1..], data[1..]);
        assert addrs[..1][1..] == [] && data[..1][1..] == [];
        ghost var done := |rest.bus.trace| - |bus.trace| - (if rest.status == Ok then 0 else 1);
        assert addrs[1..][..done - 1] == addrs[..done][1..];
        assert data[1..][..done - 1] == data[..done][1..];
        rest
  }

  /** A successful block read that stays clear of the status register
      returns the register file's bytes at `addr`. */
  lemma BlockOfRegisters(bus: Bus, env: Env, addr: uint8, len: uint8, data: seq<uint8>)
    requires addr as int + len as int <= 256
    requires STATUS_ADDR < addr || addr as int + len as int <= STATUS_ADDR as int
    requires |data| == len as int
    requires forall i :: 0 <= i < len as int ==> data[i] == Peek(bus, env, addr as int + i)
    ensures data == bus.chip.regs[addr..addr as int + len as int]
  {
  }

  /** `bme280_set_regs` writing `len` bytes: a zero length is refused
      before any transaction. */
  function SetRegs(bus: Bus, env: Env, addrs: seq<uint8>, data: seq<uint8>, len: uint8): (r: Step)
    requires |addrs| >= len as int && |data| >= len as int
    ensures len == 0 ==> r == Step(InvalidLen, bus)
    ensures len > 0 ==> r.status == Ok || r.status == CommFail
    ensures len > 0 && r.status == Ok
            ==> |r.bus.trace| == |bus.trace| + len as int
                && r.bus.chip == CommitAll(bus.chip, addrs[..len], data[..len])
  {
    if len == 0 then Step(InvalidLen, bus)
    else
      var r := WriteBytes(bus, env, addrs[..len], data[..len]);
      assert addrs[..len][..len] == addrs[..len] && data[..len][..len] == data[..len];
      r
  }

  /** A one-byte `bme280_set_regs`, the only kind the driver issues: on
      success the device takes the write as `Commit` says; on failure the
      device is unchanged. */
  function SetReg(bus: Bus, env: Env, addr: uint8, value: uint8): (r: Step)
    ensures r.bus.trace == bus.trace + [Write(addr, value)]
    ensures r.status == Ok <==> |bus.trace| !in env.fails
    ensures r.status != Ok ==> r.status == CommFail && r.bus.chip == bus.chip
    ensures r.status == Ok ==> r.bus.chip == Commit(bus.chip, addr, value)
  {
    var r := SetRegs(bus, env, [addr], [value], 1);
    assert [addr][..1] == [addr] && [value][..1] == [value];
    assert |r.bus.trace| == |bus.trace| + 1;
    assert r.bus.trace[..|bus.trace|] == bus.trace;
    assert r.bus.trace == r.bus.trace[..|bus.trace|] + [r.bus.trace[|bus.trace|]];
    assert CommitAll(bus.chip, [addr], [value]) == CommitAll(Commit(bus.chip, addr, value), [], []);
    r
  }

  /** A one-byte `bme280_get_regs` into a variable that held `dest`: a
      failed read leaves the variable as it was. */
  function GetReg(bus: Bus, env: Env, addr: uint8, dest: uint8): (r: ByteRead)
    ensures r.bus == bus.(trace := bus.trace + [Read(addr, 1)])
    ensures r.status == Ok <==> |bus.trace| !in env.fails
    ensures r.status != Ok ==> r.status == CommFail && r.value == dest
    ensures r.status == Ok ==> r.value == Peek(bus, env, addr as nat)
  {
    var rd := GetRegs(bus, env, addr, 1);
    ByteRead(rd.status, if rd.status == Ok then rd.data[0] else dest, rd.bus)
  }

  /** The read-modify-write every settings helper performs on one register:
      read it, stop on failure, otherwise write back `update` of the byte
      read. */
  function ModifyReg(bus: Bus, env: Env, addr: uint8, update: uint8 -> uint8): (r: Step)
    ensures r.status == Ok || r.status == CommFail
    ensures r.status == Ok <==> Succeed(env, |bus.trace|, |bus.trace| + 2)
    ensures r.status != Ok ==> |r.bus.trace| - 1 in env.fails
    ensures |bus.trace| in env.fails
            ==> r == Step(CommFail, bus.(trace := bus.trace + [Read(addr, 1)]))
    ensures |bus.trace| !in env.fails
            ==> (var w := update(Peek(bus, env, addr as nat));
                 r.bus.trace == bus.trace + [Read(addr, 1), Write(addr, w)]
                 && r.bus.chip == if r.status == Ok then Commit(bus.chip, addr, w) else bus.chip)
  {
    var rd := GetReg(bus, env, addr, 0);
    if rd.status != Ok then Step(rd.status, rd.bus)
    else SetReg(rd.bus, env, addr, update(rd.value))
  }
}
